=== FILE: README.md ===
# justping core, modelled in Dafny

justping watches a part of a web page for changes. On the client, the user
loads a page into a frame. They hover over and click an element, and the
element locator builds a CSS selector for it. The user then configures a
monitor for that selector. On the server, a Go backend stores monitors and
alerts in MongoDB, and it receives change notifications from a
change-detection service through a webhook. This project models that core:

- **Element locator** (`selector_generator.dfy`, `selector_proofs.dfy`,
  `dom.dfy`). A document snapshot with tag names, ids, classes, parents and
  ordered children. `generateSelector` is a loop, proved against a
  specification of the ancestor walk. Proofs cover what the selector matches
  under the child combinator and `:nth-of-type()` (Selectors Level 3,
  sections 8.2 and 6.6.5.4). Matching follows the HTML standard: a type
  selector ignores case only for HTML elements, id and class selectors ignore
  ASCII case only in a quirks-mode document (a page written into the frame
  without a doctype is one), and a browser splits `class` on ASCII white space. The class-based readable selector is modelled too.
- **The two picker pages** (`picker.dfy`, `element_selector.dfy`,
  `pinning.dfy`). Each page is a class, and each of its event handlers is a
  method. The shared rules are URL normalisation, the html/body filter, the
  pin toggle, and the reading of the Pin button's reply, including the
  `"uuid"` regular-expression capture.
- **Monitor form** (`monitor_form.dfy`). The frequency options, the lookup
  from a select value back to an option, the initial state and the submitted
  configuration.
- **Change-detection client** (`change_detection.dfy`). Frequency to check
  interval, the requests the client sends, and how it reads status codes.
- **Backend handlers** (`models.dfy`, `store.dfy`, `monitors.dfy`,
  `alerts.dfy`). Monitor listing, creation, reading, update and deletion.
  The alert webhook, the newest-first alert listing, and marking alerts as
  checked. The two collections are fields of a class that the handler
  methods update.
- **Profile button** (`profile.dfy`). The avatar's initials and the hues of
  its gradient.
- **Integrations page** (`integrations.dfy`). The fixed list, the initial
  on/off map, the toggle, and the grouping into categories.

`text.dfy` holds the string operations of JavaScript and Go that these use:
`trim`, `split`, `join`, case mapping, `strings.TrimPrefix` and number
printing. `wrappers.dfy` holds `Option` and `Result`.

Inputs the code gets from the outside world are parameters of the model:
- the session check's outcome;
- the current time, and the id a new document receives;
- the JSON and BSON decoders' results;
- `CSS.escape`;
- whether the document written into the frame is in quirks mode;
- what the frame and the proxies did.

## Model

| member | source | states |
|---|---|---|
| Text.ToLower | client/src/utils/selectorGenerator.ts:14 | lower-casing keeps the length |
| Text.ToUpper | client/src/components/ProfileButton.tsx:36-38 | upper-casing keeps the length |
| Text.TrimPrefix | backend/internal/handlers/monitors.go:175 | the prefix is removed when present, and the path is kept otherwise |
| Text.TrimStart | client/src/components/ElementSelector.tsx:248-250 | only leading white space is removed, all of it |
| Text.TrimEnd | client/src/components/ElementSelector.tsx:248-250 | only trailing white space is removed, all of it |
| Text.Trim | client/src/components/ElementSelector.tsx:248-250 | the result is the slice of the input between a run of leading and a run of trailing white space, and neither starts nor ends with white space |
| Text.TrimmedIsFixed | client/src/components/ElementSelector.tsx:250 | trimming an already trimmed string changes nothing |
| Text.JoinLength | client/src/utils/selectorGenerator.ts:46 | joining n parts inserts exactly n - 1 separators |
| Text.Split | client/src/components/ProfileButton.tsx:34 | split yields at least one part, and no part contains the separator |
| Text.SplitJoin | client/src/components/ProfileButton.tsx:34 | joining the parts with the separator gives back the string |
| Text.SplitFirstPart | client/src/components/ProfileButton.tsx:35-36 | a string not starting with the separator has a non-empty first part |
| Text.SplitLastPart | client/src/components/ProfileButton.tsx:35-36 | a string not ending with the separator has a non-empty last part |
| Text.NatToString | client/src/components/CreateMonitorForm.tsx:88 | a number prints as a non-empty run of decimal digits with no leading zero |
| Text.DigitsValueAppend | client/src/components/CreateMonitorForm.tsx:88 | appending a digit multiplies a numeral's value by ten and adds the digit |
| Text.NatToStringValue | client/src/components/CreateMonitorForm.tsx:88 | the printed digits denote the number in decimal |
| Dom.SameTagChildren | client/src/utils/selectorGenerator.ts:27-29 | the filter keeps exactly the children with the tag |
| Dom.SameTagSiblings | client/src/utils/selectorGenerator.ts:24-29 | an element with a parent is among its own same-tag siblings |
| Dom.IndexOf | client/src/utils/selectorGenerator.ts:32 | `indexOf` gives the first position of the element, or -1 exactly when it is absent |
| Dom.IndexOfSameTag | client/src/utils/selectorGenerator.ts:32-33 | the index among same-tag siblings is the count of same-type elements before it, the rank `:nth-of-type` uses |
| Dom.RankDetermines | client/src/utils/selectorGenerator.ts:32-33 | two distinct same-tag siblings never share a rank |
| Dom.IdCountOne | client/src/utils/selectorGenerator.ts:58-59 | a query count of one means only one element is selected by the id, which in a quirks-mode document counts ids that differ only in ASCII case |
| SelectorGenerator.GenerateSelector | client/src/utils/selectorGenerator.ts:4-47 | the loop returns the rendering of the specified ancestor walk |
| SelectorGenerator.LevelSelector | client/src/utils/selectorGenerator.ts:14-35 | one loop step emits the level's segment |
| SelectorGenerator.WalkStep | client/src/utils/selectorGenerator.ts:13-44 | the walk stops at an orphan or a child of html, and otherwise continues with the parent |
| SelectorGenerator.Tokens | client/src/utils/selectorGenerator.ts:89 | tokens are non-empty and contain no separator, whether split on ECMAScript white space as the source does or on ASCII white space as a browser splits `class` |
| SelectorGenerator.TokensAgree | client/src/utils/selectorGenerator.ts:89 | the source's tokens and the browser's class list coincide when the two white-space sets agree on the attribute's characters |
| SelectorGenerator.ClassBasedSelector | client/src/utils/selectorGenerator.ts:86-109 | a class selector exists exactly when the class name is a string with tokens, the document exists, and tag plus first two classes select exactly one element; when the element's own name and class list read as the selector reads them, that element is the clicked one; it has 1 or 2 leading classes |
| SelectorGenerator.OwnClassSelectorMatches | client/src/utils/selectorGenerator.ts:92-94 | an element whose lower-cased name selects it and whose `class` holds only ASCII white space matches the selector built from its own tag and leading classes |
| SelectorGenerator.CountOneMeansSingle | client/src/utils/selectorGenerator.ts:100-102 | a query count of one means exactly one element matches |
| SelectorGenerator.CountOneMeansOnly | client/src/utils/selectorGenerator.ts:100-102 | a count of one for a selector the element matches means it is the only match |
| SelectorGenerator.GetReadableSelector | client/src/utils/selectorGenerator.ts:68-81 | the class selector is returned exactly when the structural selector is over 100 characters and a class selector exists and is strictly shorter, otherwise the structural selector; so the result is never longer |
| SelectorGenerator.RenderSingle | client/src/utils/selectorGenerator.ts:46 | a one-segment path renders as that segment alone |
| SelectorProofs.FastPath | client/src/utils/selectorGenerator.ts:6-8 | the walk is the single `#id` segment exactly when the element's id is unique (the id query, case-insensitive in quirks mode, counts one), and renders as `#` plus the escaped id |
| SelectorProofs.IsIdUniqueMeaning | client/src/utils/selectorGenerator.ts:52-63 | `isIdUnique` holds exactly when the element has a non-empty id, the document exists, and `#id` selects that element alone; in a quirks-mode document no other element may carry the id in another ASCII case |
| SelectorProofs.LevelSegmentSpec | client/src/utils/selectorGenerator.ts:23-35 | `:nth-of-type(k)` appears exactly when the parent has several children with the tag, and k is the element's 1-based rank among them |
| SelectorProofs.SiblingsGetDistinctRanks | client/src/utils/selectorGenerator.ts:27-33 | two same-tag siblings get different `:nth-of-type` indices |
| SelectorProofs.WalkAt | client/src/utils/selectorGenerator.ts:13-44 | each visited element is the parent of the next and is never html, and only the outermost may be an id anchor |
| SelectorProofs.WalkShape | client/src/utils/selectorGenerator.ts:13-44 | one segment per visited element, with the clicked element last |
| SelectorProofs.OrphanSelector | client/src/utils/selectorGenerator.ts:13-46 | an orphan without a unique id gets its bare lower-case tag |
| SelectorProofs.SeparatorCount | client/src/utils/selectorGenerator.ts:46 | the selector's length is the segments' lengths plus 3 per `" > "` |
| SelectorProofs.WalkMatchesElement | client/src/utils/selectorGenerator.ts:4-47 | the walk's segments match the clicked element whenever each walked element is selected by its own lower-cased name |
| SelectorProofs.SiblingMatchIsSelf | client/src/utils/selectorGenerator.ts:27-33 | a sibling matching the element's level segment is the element itself |
| SelectorProofs.SiblingInSameTagSiblings | client/src/utils/selectorGenerator.ts:27-29 | a same-tag sibling is among the siblings the filter collects |
| SelectorProofs.AnchoredWalkMatchesOnly | client/src/utils/selectorGenerator.ts:16-21 | anything a selector anchored on a unique id matches is the clicked element |
| SelectorProofs.AnchoredSelectorIsUnique | client/src/utils/selectorGenerator.ts:1-21 | under the same condition on names, an id-anchored selector matches the clicked element and no other |
| SelectorProofs.QuirksIdCaseVariant | client/src/utils/selectorGenerator.ts:52-63 | beside `<div id="foo">`, `<div id="Foo">` has a unique id in a no-quirks document and not in a quirks-mode one |
| SelectorProofs.ForeignObjectUnmatched | client/src/utils/selectorGenerator.ts:14 | the walk to an SVG `foreignObject` yields `body > svg > foreignobject`, which does not select it, because type selectors compare exactly with foreign elements |
| SelectorProofs.NoBreakSpaceSelectsSibling | client/src/utils/selectorGenerator.ts:89-102 | for `<div class="a&nbsp;b">` beside `<div class="a b">`, the class selector returned is `div.a.b`, which selects the sibling and not the clicked element |
| Picker.NormalizeUrl | client/src/components/ElementSelector.tsx:250-253 | the URL is the trimmed input, with `https://` added exactly when it has no http(s) scheme |
| Picker.NormalizeIdempotent | client/src/components/ElementSelector.tsx:250-253 | normalising twice is normalising once |
| Picker.PinnedSelector | client/src/components/ElementSelector.tsx:49-51 | the compared selector is the pin's, and an empty selector counts as none |
| Picker.Toggle | client/src/components/ElementSelector.tsx:120-125 | a click unpins exactly when the clicked selector is the pinned one, and otherwise pins the clicked element |
| Picker.ToggleTwiceUnpins | client/src/components/ElementSelector.tsx:120-125 | two clicks on a new element pin it and then unpin it |
| Picker.ToggleTwiceRepins | client/src/components/ElementSelector.tsx:120-125 | two clicks on the pinned element unpin it and then pin it again |
| Picker.SkipSpaces | client/src/components/ElementSelector.tsx:401 | `\s*` consumes the maximal white-space run |
| Picker.QuoteFreeEnd | client/src/components/ElementSelector.tsx:401 | `[^"]` consumes the maximal run without quotes |
| Picker.MatchAt | client/src/components/ElementSelector.tsx:401 | a capture is non-empty and quote-free |
| Picker.FirstMatch | client/src/components/ElementSelector.tsx:401 | the result is the capture at the leftmost matching position, with no match before it; none exactly when no position matches |
| Picker.UuidCapture | client/src/components/ElementSelector.tsx:401-402 | `match` gives the leftmost match's capture, non-empty and quote-free, and fails exactly when no position matches |
| Picker.UuidRoundTrip | client/src/components/ElementSelector.tsx:401-402 | a body holding `"uuid": "u"` with no `"` before it yields u, whatever follows |
| Picker.PinDialog | client/src/components/ElementSelector.tsx:397-417 | success exactly on an ok reply with status 201 and a string body, showing the captured uuid or the fallback; every other case gets its error text |
| ElementSelectorPage.ElementSelector.constructor | client/src/components/ElementSelector.tsx:31-46 | the initial state |
| ElementSelectorPage.ElementSelector.SetUrl | client/src/components/ElementSelector.tsx:433 | typing sets the URL |
| ElementSelectorPage.ElementSelector.LoadUrl | client/src/components/ElementSelector.tsx:247-261 | a blank input changes nothing; otherwise the pin, the hover, the error and the content are reset and the normalised URL is loading |
| ElementSelectorPage.ElementSelector.FetchDone | client/src/components/ElementSelector.tsx:263-271 | fetched HTML is stored with status "Rendering..."; a failed fetch sets the error and stops loading |
| ElementSelectorPage.ElementSelector.WriteContent | client/src/components/ElementSelector.tsx:275-308 | with content present, a write ends loading and clears the status, and a throwing write sets "Failed to render page content" |
| ElementSelectorPage.ElementSelector.SetupListeners | client/src/components/ElementSelector.tsx:73-150 | no frame changes nothing, no access sets "Cannot access page content", and attaching clears the error |
| ElementSelectorPage.ElementSelector.IframeLoad | client/src/components/ElementSelector.tsx:320-326 | the frame's load acts only without fetched content: it stops loading and wires the listeners |
| ElementSelectorPage.ElementSelector.MouseMove | client/src/components/ElementSelector.tsx:85-100 | a null or unchanged target changes nothing; html and body clear the hover; any other target becomes the hover with its box |
| ElementSelectorPage.ElementSelector.MouseLeave | client/src/components/ElementSelector.tsx:131-134 | the hover is cleared |
| ElementSelectorPage.ElementSelector.Click | client/src/components/ElementSelector.tsx:103-128 | a null target, html, body or an unmeasurable box changes nothing; otherwise the pin toggles on the generated selector |
| ElementSelectorPage.ElementSelector.PinClick | client/src/components/ElementSelector.tsx:385-418 | nothing before a URL is loaded; otherwise the dialog shows the reply's reading |
| PinningPage.Pinning.constructor | client/src/pages/Pinning.tsx:79-88 | the initial state |
| PinningPage.Pinning.SetUrl | client/src/pages/Pinning.tsx:472 | typing sets the URL |
| PinningPage.Pinning.LoadUrl | client/src/pages/Pinning.tsx:294-310 | as in the element selector, and demo mode is switched off |
| PinningPage.Pinning.FetchDone | client/src/pages/Pinning.tsx:311-319 | fetched HTML is stored with status "Rendering..."; a failed fetch sets the error and stops loading |
| PinningPage.Pinning.WriteContent | client/src/pages/Pinning.tsx:323-356 | with content present, a write ends loading and clears the status, and a throwing write sets "Failed to render page content" |
| PinningPage.Pinning.SetupListeners | client/src/pages/Pinning.tsx:120-197 | no frame changes nothing, no access sets "Cannot access page content", and attaching clears the error |
| PinningPage.Pinning.LoadDemo | client/src/pages/Pinning.tsx:359-367 | demo mode on, about:blank loading, and the pin, hover, error and content cleared |
| PinningPage.Pinning.WriteDemo | client/src/pages/Pinning.tsx:369-388 | the demo write ends loading and wires the listeners; a throwing write sets "Failed to load demo" |
| PinningPage.Pinning.IframeLoad | client/src/pages/Pinning.tsx:399-405 | the frame's load acts only without fetched content and outside demo mode |
| PinningPage.Pinning.MouseMove | client/src/pages/Pinning.tsx:132-148 | a null or unchanged target changes nothing; html and body clear the hover; any other target becomes the hover |
| PinningPage.Pinning.MouseLeave | client/src/pages/Pinning.tsx:178-181 | the hover is cleared |
| PinningPage.Pinning.Click | client/src/pages/Pinning.tsx:150-175 | a null target, html, body or an unmeasurable box changes nothing; otherwise the pin toggles on the generated selector |
| MonitorForm.FindIndex | client/src/components/CreateMonitorForm.tsx:88 | the first option whose `value-unit` key matches, or -1 exactly when none does |
| MonitorForm.FindOption | client/src/components/CreateMonitorForm.tsx:88 | `find` gives a listed option with that key, or nothing exactly when no key matches |
| MonitorForm.NatToStringInjective | client/src/components/CreateMonitorForm.tsx:88 | different numbers print differently |
| MonitorForm.OptionKeyInjective | client/src/components/CreateMonitorForm.tsx:88 | an option's key determines its value and unit |
| MonitorForm.FrequencyKeysDistinct | client/src/components/CreateMonitorForm.tsx:35-41 | the five options have distinct keys |
| MonitorForm.FindOwnKey | client/src/components/CreateMonitorForm.tsx:88 | with distinct keys, looking up an option's key finds that option |
| MonitorForm.SelectRoundTrip | client/src/components/CreateMonitorForm.tsx:87-92 | choosing any listed option selects exactly that option |
| MonitorForm.InitialFrequencyListed | client/src/components/CreateMonitorForm.tsx:56-59 | the initial one-hour frequency is the third listed option |
| MonitorForm.CreateMonitorForm.constructor | client/src/components/CreateMonitorForm.tsx:49-64 | the initial state: 1 hour, forever, alerts on, email, text |
| MonitorForm.CreateMonitorForm.HandleFrequencyChange | client/src/components/CreateMonitorForm.tsx:87-92 | a matching option sets the frequency, and an unknown value keeps it |
| MonitorForm.CreateMonitorForm.HandleSubmit | client/src/components/CreateMonitorForm.tsx:67-85 | the configuration carries the form state, with an end date exactly when the type is until_date and the date is non-empty |
| ChangeDetection.MapFrequency | backend/internal/changedetection/client.go:45-58 | the value goes to the field its unit names, and an unknown unit leaves the interval empty |
| ChangeDetection.MapFrequencySetsAtMostOne | backend/internal/changedetection/client.go:19-25 | at most one field is set, and exactly one for a known unit with a non-zero value |
| ChangeDetection.MapFrequencyRoundTrip | backend/internal/changedetection/client.go:45-58 | a supported non-zero frequency is recovered from its interval |
| ChangeDetection.CreateRequest | backend/internal/changedetection/client.go:61-75 | POST to base URL plus /api/v1/watch, with the API key and JSON content type |
| ChangeDetection.DeleteRequest | backend/internal/changedetection/client.go:103-111 | DELETE to /api/v1/watch/{uuid}, with the API key |
| ChangeDetection.CreateWatchResult | backend/internal/changedetection/client.go:78-99 | success exactly on 200 or 201 with parseable JSON, giving its uuid; other statuses report status and body |
| ChangeDetection.DeleteWatchResult | backend/internal/changedetection/client.go:114-125 | success exactly on 200; other statuses report status and body |
| Store.FirstIndex | backend/internal/handlers/monitors.go:217 | a find-one returns the first matching document, or nothing exactly when none matches |
| Store.Filter | backend/internal/handlers/monitors.go:60 | a find returns exactly the matching documents |
| Store.FilterCounts | backend/internal/handlers/monitors.go:60 | a find keeps each matching document with its multiplicity and drops every other one |
| Store.FirstIdIsOnly | backend/internal/handlers/monitors.go:274 | with unique ids, the document found by `_id` is the one at that id |
| Monitors.ObjectIdFromHex | backend/internal/handlers/monitors.go:181-185 | an id parses exactly from 24 hexadecimal digits, to its canonical form |
| Monitors.ObjectIdRoundTrip | backend/internal/handlers/monitors.go:181 | an id's own text parses back to it |
| Monitors.ReservedSuffixesAreNotIds | backend/internal/handlers/monitors.go:175-185 | "" and "create" would be rejected as ids anyway |
| Monitors.ListMonitors | backend/internal/handlers/monitors.go:27-82 | preflight, then 405, then 401; otherwise 200 with exactly the user's monitors |
| Monitors.DefaultFrequency | backend/internal/handlers/monitors.go:124-127 | a zero frequency becomes 5 minutes, any other is kept, and the result is never zero |
| Monitors.NewMonitor | backend/internal/handlers/monitors.go:129-144 | the stored document: identity, request content, active and unchanged, one timestamp |
| Monitors.CreateMonitor | backend/internal/handlers/monitors.go:85-163 | errors in order (405, 401, 400 body, 400 fields, 500 on a taken id); success is 201 with the new monitor appended; ids stay unique |
| Monitors.KeyInjective | backend/internal/handlers/monitors.go:237-254 | the six `$set` keys are distinct, so a map keyed by field is the string-keyed update |
| Monitors.UpdateDocument | backend/internal/handlers/monitors.go:235-255 | `$set` always stamps updatedAt, holds exactly the fields the request sets, and holds their values |
| Monitors.UpdateDocumentDetermined | backend/internal/handlers/monitors.go:235-255 | those key and value facts determine the `$set` document |
| Monitors.BuildUpdate | backend/internal/handlers/monitors.go:235-255 | the sequence of guarded assignments builds the `$set` document |
| Monitors.UpdateEffect | backend/internal/handlers/monitors.go:235-261 | an update stamps the time, takes non-empty strings and a positive frequency, and keeps every other field |
| Monitors.RouteMonitorByID | backend/internal/handlers/monitors.go:166-209 | checks in order: preflight, reserved suffixes 400, bad id 400, session 401, then GET, PUT or DELETE, and 405 exactly for any other method |
| Monitors.GetReply | backend/internal/handlers/monitors.go:211-225 | found exactly when a monitor has that id and owner; otherwise 404 |
| Monitors.UpdateMonitor | backend/internal/handlers/monitors.go:227-278 | a bad body is 400; no owned match is 404; otherwise the `$set` is applied to that monitor alone and the stored result returned |
| Monitors.DeleteMonitor | backend/internal/handlers/monitors.go:280-298 | the owned monitor is removed and no monitor with the id remains; otherwise 404 and nothing changes |
| Monitors.MonitorByID | backend/internal/handlers/monitors.go:166-209 | the route's rejection, or the reply of the GET, PUT or DELETE it leads to; ids stay unique |
| Alerts.WatchUuid | backend/internal/handlers/alerts.go:51-56 | the uuid is accepted exactly when present, a string and non-empty |
| Alerts.NewAlert | backend/internal/handlers/alerts.go:74-81 | the alert takes the monitor's owner and id, is unchecked, and keeps the raw body |
| Alerts.HandleWebhook | backend/internal/handlers/alerts.go:22-100 | errors in order (405, 400 read, 400 JSON, 400 uuid, 404 monitor, 500 when the insert fails because the raw payload is refused or the id is taken); success appends one alert for the first watching monitor |
| Alerts.InsertByTime | backend/internal/handlers/alerts.go:136 | insertion keeps newest-first order and adds exactly the one alert |
| Alerts.SortNewestFirst | backend/internal/handlers/alerts.go:136 | the sort is ordered newest first and is a permutation |
| Alerts.UserAlertsSpec | backend/internal/handlers/alerts.go:136-137 | the listing is newest first and holds exactly the user's alerts |
| Alerts.ShownPayload | backend/internal/handlers/alerts.go:158-161 | the decoded document, or `{"raw": payload}` when decoding fails |
| Alerts.MonitorName | backend/internal/handlers/alerts.go:164-168 | the name of the first monitor with that id, or "" when none has it |
| Alerts.EntryFor | backend/internal/handlers/alerts.go:170-178 | an entry copies the alert and adds the monitor name and the shown payload |
| Alerts.ListAlerts | backend/internal/handlers/alerts.go:103-188 | preflight, 405, 401; otherwise 200 with one entry per listed alert, in order |
| Alerts.MarkedFor | backend/internal/handlers/alerts.go:223-227 | every alert of the user ends checked, other users' alerts are untouched, and only `checked` changes |
| Alerts.UncheckedCount | backend/internal/handlers/alerts.go:234-239 | the modified count is at most the number of alerts; its value is stated by the next two lemmas |
| Alerts.UncheckedCountIsSize | backend/internal/handlers/alerts.go:223-239 | the count is the number of alerts the filter `{userId, checked: false}` selects |
| Alerts.UncheckedCountIsChanges | backend/internal/handlers/alerts.go:223-239 | the count equals the number of alerts whose document the mark changes |
| Alerts.UncheckedCountZero | backend/internal/handlers/alerts.go:223-239 | the count is zero exactly when none of the user's alerts is unchecked |
| Alerts.MarkIdempotent | backend/internal/handlers/alerts.go:223-227 | a second mark finds nothing and changes nothing |
| Alerts.MarkAlertsAsChecked | backend/internal/handlers/alerts.go:192-241 | preflight, 405, 401; otherwise the collection is marked and the reply counts the modified alerts |
| Profile.FirstTwo | client/src/components/ProfileButton.tsx:38 | `slice(0, 2)` is the name's prefix of length min(2, length) |
| Profile.OuterWordsNonEmpty | client/src/components/ProfileButton.tsx:34-36 | with two or more parts, the first and last words are non-empty, so `[0]` is defined |
| Profile.OuterInitials | client/src/components/ProfileButton.tsx:36 | two initials are two characters |
| Profile.Initials | client/src/components/ProfileButton.tsx:32-39 | "U" for an empty name; the outer words' initials for two or more words; otherwise the upper-cased first two characters; never more than 2 |
| Profile.InitialsOfFullName | client/src/components/ProfileButton.tsx:32-39 | "first middle last" gets the initials of first and last |
| Profile.SplitPrefix | client/src/components/ProfileButton.tsx:34 | a space-free first word is the first part |
| Profile.SplitSuffix | client/src/components/ProfileButton.tsx:34 | a space-free last word is the last part |
| Profile.SplitOfSpaceFree | client/src/components/ProfileButton.tsx:34 | a space-free string is a single part |
| Profile.Hues | client/src/components/ProfileButton.tsx:43-45 | both hues are below 360: the code sum, and seven times it, each modulo 360 |
| Profile.SecondHueFromFirst | client/src/components/ProfileButton.tsx:44-45 | the second hue is seven times the first, modulo 360 |
| Profile.CharSumConcat | client/src/components/ProfileButton.tsx:43 | the code sum is additive over concatenation |
| Profile.CharSumPermutation | client/src/components/ProfileButton.tsx:43 | the code sum ignores character order |
| Profile.GradientPermutation | client/src/components/ProfileButton.tsx:42-47 | names with the same characters get the same gradient |
| IntegrationsPage.InitialStates | client/src/pages/Integrations.tsx:84-86 | the map's keys are exactly the listed ids |
| IntegrationsPage.InitialStatesLastWins | client/src/pages/Integrations.tsx:84-86 | an entry not overridden later keeps its own flag |
| IntegrationsPage.IntegrationIdsDistinct | client/src/pages/Integrations.tsx:16-81 | the eight ids are distinct |
| IntegrationsPage.InitialStatesOfPage | client/src/pages/Integrations.tsx:16-86 | the page starts with every integration at its listed flag |
| IntegrationsPage.Toggled | client/src/pages/Integrations.tsx:88-90 | the toggle negates the entry (a missing one becomes true) and keeps the others |
| IntegrationsPage.ToggleTwice | client/src/pages/Integrations.tsx:88-90 | toggling twice restores the map |
| IntegrationsPage.TogglesCommute | client/src/pages/Integrations.tsx:88-90 | toggles of different integrations commute |
| IntegrationsPage.SectionsPartition | client/src/pages/Integrations.tsx:92-112 | each integration is in exactly its own category's section, and the sections' sizes sum to the list's |
| IntegrationsPage.IntegrationsState.constructor | client/src/pages/Integrations.tsx:84-86 | the state starts at the initial map |
| IntegrationsPage.IntegrationsState.ToggleConnection | client/src/pages/Integrations.tsx:88-90 | the switch applies the toggle |

## Left out

- Proxies and network: the proxy loop, `rewriteUrls`, `fetch`, and the backend's `/api/watch` call. Their outcomes are parameters (`FetchDone`, `PinReply`).
- Timers: the 100 ms delays before wiring listeners and writing the demo page. Each delayed step is a method the environment calls.
- Geometry: the boxes are carried as values and never computed. The re-measuring of the pin on scroll and resize is left out, because it only moves the box.
- The clipboard copy and the `copied` flag, the Enter key (it calls the Load handler), and `preventDefault`/cursor styling.
- `CSS.escape` is an arbitrary function `esc`. The facts about segments (the walk, its ranks, what the segments select) hold whatever it does. Reading a rendered selector string as its segments assumes that `esc` escapes faithfully, so that `#` followed by `esc(x)` selects the elements whose id matches `x` (exactly, or ignoring ASCII case in a quirks-mode document), and that every tag name is a CSS identifier.
- Tag names are written into selectors unescaped (`tagName.toLowerCase()`), and the model reads every tag segment as a type selector for that name. A browser reads a name that is not a CSS identifier differently: `o:p.x` (Word-exported HTML) is an invalid selector and the query throws, and `a.b` reads as type `a` with class `b`. The model has no CSS parser for the rendered strings.
- SelectorProofs.WalkMatchesElement: holds only when every element of the walk is an HTML element or has a lower-case name. For a foreign element such as SVG `foreignObject`, the generator's lower-cased segment does not select it; `SelectorProofs.ForeignObjectUnmatched` exhibits this. It is also a fact about segments: when a walked tag name is not a CSS identifier (`a.b`), or holds a non-ASCII capital that JavaScript's `toLowerCase` maps (`x-É` gives `x-é`, which the ASCII-case-insensitive comparison no longer matches), the string the generator builds does not select the element.
- SelectorProofs.AnchoredWalkMatchesOnly: a fact about segments. A rendered `#u > a.b` reads `a.b` as type `a` with class `b`, and can select a sibling `<a class="b">`.
- SelectorProofs.AnchoredSelectorIsUnique: needs the same condition on names as `WalkMatchesElement`. It also assumes that names agreeing up to ASCII case agree exactly (`Dom.CaseConsistent`), which a document holding both an HTML `a` and an SVG `a` breaks. Like `AnchoredWalkMatchesOnly`, it is about segments, not about rendered strings with tag names that are not CSS identifiers.
- SelectorGenerator.ClassBasedSelector: the returned selector is proved to select the clicked element alone only when the element's name is selectable and its `class` holds no white space outside ASCII white space. `getClassBasedSelector` splits on ECMAScript `\s` but a browser splits `class` on ASCII white space, so a no-break space yields a selector for another element; `SelectorProofs.NoBreakSpaceSelectsSibling` exhibits this.
- SelectorGenerator.ClassBasedSelector: the query is counted with the model's reading of `tag.c1.c2`. For a tag name that is not a CSS identifier, a browser's query throws and `getClassBasedSelector` returns null (`o:p.x`), or reads another selector (`a.b.x`); the model can return a selector there.
- SelectorGenerator.GetReadableSelector: inherits `ClassBasedSelector`'s reading of tag names that are not CSS identifiers.
- Text.ToLower: maps ASCII letters only and keeps the length. JavaScript's `toLowerCase` uses full Unicode case mapping ("É" to "é"; "İ" becomes two code points), which is not modelled.
- Text.ToUpper: maps ASCII letters only and keeps the length. JavaScript's `toUpperCase` uses full Unicode case mapping ("é" to "É", "ß" to "SS"), which is not modelled.
- Profile.OuterInitials: "two characters" holds for the ASCII case mapping only; in JavaScript an initial "ß" upper-cases to "SS". Strings are sequences of code points, so `parts[0][0]` on a character outside the Basic Multilingual Plane, which JavaScript reads as half a surrogate pair, is not modelled.
- Profile.Initials: "at most two characters" and the upper-casing are for the ASCII case mapping only; in JavaScript `getInitials("ßa")` is "SSA".
- Profile.Hues: sums code points, while `charCodeAt` sums UTF-16 code units, so names with characters outside the Basic Multilingual Plane get other hues. JavaScript number precision is not modelled either; the sum is an unbounded natural.
- Other string operations use ASCII case mapping and ECMAScript white space over `char`, not UTF-16 code units.
- Session verification, environment variables, CORS headers, logging and request timeouts. The session's outcome is a parameter.
- MongoDB failures other than a duplicate `_id` are not modelled: "Failed to fetch monitors", "Failed to parse monitors", "Failed to update monitor", "Failed to delete monitor", "Failed to fetch alerts", "Failed to parse alerts" and "Failed to update alerts". The store is an in-memory sequence.
- Alerts.SortNewestFirst: the server's tie order between alerts received at the same instant is unspecified, and the model keeps insertion order.
- Alerts.HandleWebhook: the alert stores the body's JSON bytes as `bson.Raw`, which is not a BSON document, and whether the driver's insert accepts them is the parameter `encodes`. The model does not decide it.
- Alerts.ShownPayload: how a stored payload decodes is the parameter `decode`.
- Times are integers. Go's `time.Time` precision and JSON encoding are not modelled.
- The rendering of each page (markup, icons, descriptions, dialogs' styling) and the demo page's HTML text.

=== FILE: alerts.dfy ===
/**
 * The alert endpoints of the backend: the change-detection webhook that
 * stores an alert, the per-user listing, newest first, and marking a user's
 * alerts as checked.
 *
 * As for the monitor endpoints, the session check, the current time and the
 * id of a new document are parameters. Reading the webhook's body is a
 * parameter too (`None` when reading failed), as are the two decoders the
 * handlers apply: `parse`, the JSON decoding of a webhook body into a map
 * (`None` exactly when `json.Unmarshal` fails; the JSON `null` decodes to an
 * empty map), and `decode`, the decoding of a stored payload into a document
 * (`None` when it fails).
 */
module Alerts {
  import opened Wrappers
  import opened Models
  import opened Http
  import opened Store

  const NotAllowed: string := "Method not allowed"
  const NoSession: string := "Unauthorized"

  // ---------------------------------------------------------------------------
  // The webhook.

  /** A member of the webhook's JSON object, as far as the handler looks at it. */
  datatype JsonField = JsonString(s: string) | JsonOther

  /** The webhook's reply body. */
  datatype Ack = Ack(status: string, message: string)

  /** `payload["watch_uuid"].(string)`, accepted only when present, a string and non-empty. */
  function WatchUuid(payload: map<string, JsonField>): (r: Option<string>)
    ensures r.Some? <==> "watch_uuid" in payload && payload["watch_uuid"].JsonString? && payload["watch_uuid"].s != ""
    ensures r.Some? ==> r.value == payload["watch_uuid"].s
  {
    if "watch_uuid" in payload && payload["watch_uuid"].JsonString? && payload["watch_uuid"].s != "" then
      Some(payload["watch_uuid"].s)
    else None
  }

  /** The filter `{"changeDetectionUuid": uuid}`. */
  function WithWatch(uuid: string): Monitor -> bool {
    (m: Monitor) => m.changeDetectionUuid == uuid
  }

  /** The alert a webhook stores for `monitor`: the monitor's owner and id, unchecked, with the raw body. */
  function NewAlert(monitor: Monitor, id: ObjectId, now: int, body: string): (a: Alert)
    ensures a.id == id && a.userId == monitor.userId && a.monitorId == monitor.id
    ensures !a.checked && a.receivedAt == now && a.payload == body
  {
    Alert(id, monitor.userId, monitor.id, false, now, body)
  }

  predicate AlertIdTaken(alerts: seq<Alert>, id: ObjectId) {
    exists k | 0 <= k < |alerts| :: alerts[k].id == id
  }

  /**
   * POST /api/webhook, which needs no session. Rejections come in the order
   * method, unreadable body, unparsable body, missing uuid, unknown uuid,
   * failed insert; an accepted call appends one alert for the first monitor
   * watching that uuid. The alert stores the body's JSON bytes as a raw BSON
   * document; `encodes` says whether the driver accepts those bytes as one.
   * The insert fails when it does not, or when the new id is already taken.
   */
  method HandleWebhook(db: Collections, verb: Method, body: Option<string>,
                       parse: string -> Option<map<string, JsonField>>, encodes: bool, id: ObjectId, now: int)
    returns (r: Reply<Ack>)
    requires AlertIdsDistinct(db.alerts)
    modifies db`alerts
    ensures AlertIdsDistinct(db.alerts)
    ensures verb.Options? ==> r.Preflight?
    ensures !verb.Options? && !verb.Post? ==> r == Failure(MethodNotAllowed, NotAllowed)
    ensures verb.Post? && body.None? ==> r == Failure(BadRequest, "Failed to read request body")
    ensures verb.Post? && body.Some? && parse(body.value).None? ==> r == Failure(BadRequest, "Invalid JSON payload")
    ensures verb.Post? && body.Some? && parse(body.value).Some? && WatchUuid(parse(body.value).value).None? ==>
      r == Failure(BadRequest, "Missing watch_uuid in payload")
    ensures verb.Post? && body.Some? && parse(body.value).Some? && WatchUuid(parse(body.value).value).Some? ==>
      var k := FirstIndex(db.monitors, WithWatch(WatchUuid(parse(body.value).value).value));
      && (k < 0 ==> r == Failure(NotFound, "Monitor not found for this watch_uuid"))
      && (k >= 0 && (!encodes || AlertIdTaken(old(db.alerts), id)) ==> r == Failure(InternalError, "Failed to store alert"))
      && (k >= 0 && encodes && !AlertIdTaken(old(db.alerts), id) ==>
            r == Success(200, Ack("ok", "Alert created successfully"))
            && db.alerts == old(db.alerts) + [NewAlert(db.monitors[k], id, now, body.value)])
    ensures !r.Success? ==> db.alerts == old(db.alerts)
  {
    if verb.Options? {
      return Preflight;
    }
    if !verb.Post? {
      return Failure(MethodNotAllowed, NotAllowed);
    }
    if body.None? {
      return Failure(BadRequest, "Failed to read request body");
    }
    var payload := parse(body.value);
    if payload.None? {
      return Failure(BadRequest, "Invalid JSON payload");
    }
    var watchUuid := WatchUuid(payload.value);
    if watchUuid.None? {
      return Failure(BadRequest, "Missing watch_uuid in payload");
    }
    var k := FirstIndex(db.monitors, WithWatch(watchUuid.value));
    if k < 0 {
      return Failure(NotFound, "Monitor not found for this watch_uuid");
    }
    var monitor := db.monitors[k];
    var alert := Alert(id, monitor.userId, monitor.id, false, now, body.value);
    if !encodes || FirstIndex(db.alerts, (a: Alert) => a.id == id) >= 0 {
      return Failure(InternalError, "Failed to store alert");
    }
    db.alerts := db.alerts + [alert];
    r := Success(200, Ack("ok", "Alert created successfully"));
  }

  // ---------------------------------------------------------------------------
  // Listing, newest first.

  /** The filter `{"userId": user}`. */
  function AlertOf(user: string): Alert -> bool {
    (a: Alert) => a.userId == user
  }

  /** The order of `receivedAt: -1`. */
  predicate NewestFirst(s: seq<Alert>) {
    forall i, j | 0 <= i < j < |s| :: s[i].receivedAt >= s[j].receivedAt
  }

  /** Places `a` in front of the first alert that is not newer than it. */
  function InsertByTime(a: Alert, s: seq<Alert>): (r: seq<Alert>)
    requires NewestFirst(s)
    ensures NewestFirst(r)
    ensures multiset(r) == multiset(s) + multiset{a}
    decreases |s|
  {
    if s == [] then [a]
    else if a.receivedAt >= s[0].receivedAt then [a] + s
    else
      var rest := InsertByTime(a, s[1..]);
      assert s == [s[0]] + s[1..];
      NotNewerThanHead(a, s, rest);
      PrependNewest(s[0], rest);
      [s[0]] + rest
  }

  /** Whatever `rest` holds came from the tail of `s` or is `a`, so none of it is newer than `s[0]`. */
  lemma NotNewerThanHead(a: Alert, s: seq<Alert>, rest: seq<Alert>)
    requires s != [] && NewestFirst(s) && a.receivedAt < s[0].receivedAt
    requires multiset(rest) == multiset(s[1..]) + multiset{a}
    ensures forall x | x in rest :: x.receivedAt <= s[0].receivedAt
  {
    forall x | x in rest
      ensures x.receivedAt <= s[0].receivedAt
    {
      assert x in multiset(rest);
      if x != a {
        assert x in multiset(s[1..]);
        var j :| 0 <= j < |s[1..]| && s[1..][j] == x;
        assert s[j + 1] == x;
      }
    }
  }

  /** An alert no older than anything in a newest-first list can go in front of it. */
  lemma PrependNewest(x: Alert, rest: seq<Alert>)
    requires NewestFirst(rest)
    requires forall y | y in rest :: y.receivedAt <= x.receivedAt
    ensures NewestFirst([x] + rest)
  {
    var r := [x] + rest;
    forall i, j | 0 <= i < j < |r|
      ensures r[i].receivedAt >= r[j].receivedAt
    {
      if i == 0 {
        assert r[j] == rest[j - 1];
      } else {
        assert r[i] == rest[i - 1] && r[j] == rest[j - 1];
      }
    }
  }

  /** The alerts ordered by `receivedAt`, newest first; alerts received together keep their order. */
  function SortNewestFirst(s: seq<Alert>): (r: seq<Alert>)
    ensures NewestFirst(r)
    ensures multiset(r) == multiset(s)
  {
    if s == [] then []
    else
      assert s == [s[0]] + s[1..];
      InsertByTime(s[0], SortNewestFirst(s[1..]))
  }

  /** The alerts a listing shows: the user's own, newest first. */
  function UserAlerts(alerts: seq<Alert>, user: string): seq<Alert> {
    SortNewestFirst(Filter(alerts, AlertOf(user)))
  }

  /** A listing holds exactly the user's stored alerts, newest first. */
  lemma UserAlertsSpec(alerts: seq<Alert>, user: string)
    ensures NewestFirst(UserAlerts(alerts, user))
    ensures forall a | a in UserAlerts(alerts, user) :: a in alerts && a.userId == user
    ensures forall a | a in alerts && a.userId == user :: a in UserAlerts(alerts, user)
  {
    var mine := Filter(alerts, AlertOf(user));
    var listed := UserAlerts(alerts, user);
    assert multiset(listed) == multiset(mine);
    forall a | a in listed
      ensures a in alerts && a.userId == user
    {
      assert a in multiset(mine);
    }
    forall a | a in alerts && a.userId == user
      ensures a in listed
    {
      assert AlertOf(user)(a);
      assert a in multiset(listed);
    }
  }

  /** The payload a listing shows: the decoded document, or the raw text under "raw". */
  function ShownPayload(a: Alert, decode: string -> Option<Document>): (d: Document)
    ensures decode(a.payload).Some? ==> d == decode(a.payload).value
    ensures decode(a.payload).None? ==> d == map["raw" := DocString(a.payload)]
  {
    match decode(a.payload)
    case Some(doc) => doc
    case None => map["raw" := DocString(a.payload)]
  }

  /** The name a listing shows: that of the first monitor with the alert's monitor id, or "". */
  function MonitorName(monitors: seq<Monitor>, monitorId: ObjectId): (name: string)
    ensures (forall k | 0 <= k < |monitors| :: monitors[k].id != monitorId) ==> name == ""
    ensures (exists k | 0 <= k < |monitors| :: monitors[k].id == monitorId) ==>
      exists k | 0 <= k < |monitors| ::
        && monitors[k].id == monitorId && name == monitors[k].websiteName
        && forall j | 0 <= j < k :: monitors[j].id != monitorId
  {
    var k := FirstIndex(monitors, (m: Monitor) => m.id == monitorId);
    if k < 0 then "" else monitors[k].websiteName
  }

  /** One entry of the listing: the alert's own fields, its monitor's name and its shown payload. */
  function EntryFor(monitors: seq<Monitor>, a: Alert, decode: string -> Option<Document>): (e: AlertResponse)
    ensures e.id == a.id && e.userId == a.userId && e.monitorId == a.monitorId
    ensures e.checked == a.checked && e.receivedAt == a.receivedAt
    ensures e.monitorName == MonitorName(monitors, a.monitorId) && e.payload == ShownPayload(a, decode)
  {
    AlertResponse(a.id, a.userId, a.monitorId, MonitorName(monitors, a.monitorId), a.checked, a.receivedAt,
                  ShownPayload(a, decode))
  }

  /**
   * GET /api/alerts: one entry per alert of the user, in the listing's
   * order, and an empty list when there are none.
   */
  method ListAlerts(db: Collections, verb: Method, session: Option<string>, decode: string -> Option<Document>)
    returns (r: Reply<seq<AlertResponse>>)
    ensures verb.Options? ==> r.Preflight?
    ensures !verb.Options? && !verb.Get? ==> r == Failure(MethodNotAllowed, NotAllowed)
    ensures verb.Get? && session.None? ==> r == Failure(Unauthorized, NoSession)
    ensures verb.Get? && session.Some? ==> r.Success? && r.status == 200
    ensures r.Success? ==>
      var alerts := UserAlerts(db.alerts, session.value);
      && |r.value| == |alerts|
      && forall k | 0 <= k < |alerts| :: r.value[k] == EntryFor(db.monitors, alerts[k], decode)
  {
    if verb.Options? {
      return Preflight;
    }
    if !verb.Get? {
      return Failure(MethodNotAllowed, NotAllowed);
    }
    if session.None? {
      return Failure(Unauthorized, NoSession);
    }
    var alerts := SortNewestFirst(Filter(db.alerts, AlertOf(session.value)));
    var response: seq<AlertResponse> := [];
    var i := 0;
    while i < |alerts|
      invariant 0 <= i <= |alerts|
      invariant |response| == i
      invariant forall k | 0 <= k < i :: response[k] == EntryFor(db.monitors, alerts[k], decode)
    {
      var alert := alerts[i];
      var payload := decode(alert.payload);
      var shown := if payload.Some? then payload.value else map["raw" := DocString(alert.payload)];
      var monitorName := "";
      var m := FirstIndex(db.monitors, (m: Monitor) => m.id == alert.monitorId);
      if m >= 0 {
        monitorName := db.monitors[m].websiteName;
      }
      response := response + [AlertResponse(alert.id, alert.userId, alert.monitorId, monitorName,
                                            alert.checked, alert.receivedAt, shown)];
      i := i + 1;
    }
    r := Success(200, response);
  }

  // ---------------------------------------------------------------------------
  // Marking as checked.

  /** The reply to a mark: `{"status": "ok", "markedCount": n}`. */
  datatype Marked = Marked(status: string, markedCount: nat)

  /** Whether the update-many's filter `{"userId": user, "checked": false}` selects `a`. */
  predicate Unchecked(a: Alert, user: string) {
    a.userId == user && !a.checked
  }

  /** The update-many's effect on one alert. */
  function Mark(a: Alert, user: string): Alert {
    if Unchecked(a, user) then a.(checked := true) else a
  }

  /** The collection after the update-many: every alert of `user` checked, every other alert as it was. */
  function MarkedFor(alerts: seq<Alert>, user: string): (r: seq<Alert>)
    ensures |r| == |alerts|
    ensures forall k | 0 <= k < |r| :: r[k].userId == user ==> r[k].checked
    ensures forall k | 0 <= k < |r| :: alerts[k].userId != user ==> r[k] == alerts[k]
    ensures forall k | 0 <= k < |r| :: r[k] == alerts[k].(checked := r[k].checked)
  {
    seq(|alerts|, k requires 0 <= k < |alerts| => Mark(alerts[k], user))
  }

  /** The number of alerts the update-many modifies. */
  function UncheckedCount(alerts: seq<Alert>, user: string): (n: nat)
    ensures n <= |alerts|
  {
    if alerts == [] then 0
    else UncheckedCount(alerts[..|alerts| - 1], user) + (if Unchecked(alerts[|alerts| - 1], user) then 1 else 0)
  }

  /** The count is the number of alerts the filter `{"userId": user, "checked": false}` selects. */
  lemma {:induction false} UncheckedCountIsSize(alerts: seq<Alert>, user: string)
    ensures UncheckedCount(alerts, user) == |set k | 0 <= k < |alerts| && Unchecked(alerts[k], user)|
  {
    if alerts != [] {
      var last := |alerts| - 1;
      var init := alerts[..last];
      UncheckedCountIsSize(init, user);
      var before := set k | 0 <= k < last && Unchecked(init[k], user);
      var all := set k | 0 <= k < |alerts| && Unchecked(alerts[k], user);
      assert forall k | 0 <= k < last :: init[k] == alerts[k];
      assert all == if Unchecked(alerts[last], user) then before + {last} else before;
    }
  }

  /** The count is the number of alerts whose document the mark changes. */
  lemma UncheckedCountIsChanges(alerts: seq<Alert>, user: string)
    ensures UncheckedCount(alerts, user) == |set k | 0 <= k < |alerts| && MarkedFor(alerts, user)[k] != alerts[k]|
  {
    var marked := MarkedFor(alerts, user);
    UncheckedCountIsSize(alerts, user);
    assert (set k | 0 <= k < |alerts| && marked[k] != alerts[k]) == set k | 0 <= k < |alerts| && Unchecked(alerts[k], user);
  }

  /** No alert is counted exactly when none of the user's alerts is unchecked. */
  lemma {:induction false} UncheckedCountZero(alerts: seq<Alert>, user: string)
    ensures UncheckedCount(alerts, user) == 0 <==> forall k | 0 <= k < |alerts| :: !Unchecked(alerts[k], user)
  {
    if alerts != [] {
      var init := alerts[..|alerts| - 1];
      UncheckedCountZero(init, user);
      assert forall k | 0 <= k < |init| :: init[k] == alerts[k];
    }
  }

  /** A second mark right after the first finds nothing to mark and changes nothing. */
  lemma MarkIdempotent(alerts: seq<Alert>, user: string)
    ensures UncheckedCount(MarkedFor(alerts, user), user) == 0
    ensures MarkedFor(MarkedFor(alerts, user), user) == MarkedFor(alerts, user)
  {
    UncheckedCountZero(MarkedFor(alerts, user), user);
  }

  /** POST /api/alerts/mark-checked: checks every unchecked alert of the user and reports how many. */
  method MarkAlertsAsChecked(db: Collections, verb: Method, session: Option<string>) returns (r: Reply<Marked>)
    requires AlertIdsDistinct(db.alerts)
    modifies db`alerts
    ensures AlertIdsDistinct(db.alerts)
    ensures verb.Options? ==> r.Preflight?
    ensures !verb.Options? && !verb.Post? ==> r == Failure(MethodNotAllowed, NotAllowed)
    ensures verb.Post? && session.None? ==> r == Failure(Unauthorized, NoSession)
    ensures verb.Post? && session.Some? ==>
      r == Success(200, Marked("ok", UncheckedCount(old(db.alerts), session.value)))
      && db.alerts == MarkedFor(old(db.alerts), session.value)
    ensures !r.Success? ==> db.alerts == old(db.alerts)
  {
    if verb.Options? {
      return Preflight;
    }
    if !verb.Post? {
      return Failure(MethodNotAllowed, NotAllowed);
    }
    if session.None? {
      return Failure(Unauthorized, NoSession);
    }
    var user := session.value;
    var count := 0;
    var i := 0;
    while i < |db.alerts|
      invariant 0 <= i <= |db.alerts| == |old(db.alerts)|
      invariant forall k | 0 <= k < i :: db.alerts[k] == Mark(old(db.alerts)[k], user)
      invariant forall k | i <= k < |db.alerts| :: db.alerts[k] == old(db.alerts)[k]
      invariant count == UncheckedCount(old(db.alerts)[..i], user)
    {
      assert old(db.alerts)[..i + 1][..i] == old(db.alerts)[..i];
      if db.alerts[i].userId == user && !db.alerts[i].checked {
        db.alerts := db.alerts[i := db.alerts[i].(checked := true)];
        count := count + 1;
      }
      i := i + 1;
    }
    assert old(db.alerts)[..i] == old(db.alerts);
    r := Success(200, Marked("ok", count));
  }
}

=== FILE: change_detection.dfy ===
/**
 * The client for the external change-detection service: the translation of a
 * monitor's frequency into the service's check interval, the requests the
 * client sends, and how it reads the service's status codes.
 *
 * The exchange itself is a parameter: `SendFailed` when building or sending
 * the request failed, otherwise the status and body the service answered.
 */
module ChangeDetection {
  import opened Wrappers
  import opened Models

  /** The service's check interval; zero fields are omitted on the wire. */
  datatype TimeBetweenCheck = TimeBetweenCheck(weeks: int, days: int, hours: int, minutes: int, seconds: int)

  const NoInterval: TimeBetweenCheck := TimeBetweenCheck(0, 0, 0, 0, 0)

  /** The interval for a frequency: the value goes to the field its unit names. */
  function MapFrequency(freq: Frequency): (r: TimeBetweenCheck)
    ensures r.weeks == 0 && r.seconds == 0
    ensures freq.unit == "minutes" ==> r == NoInterval.(minutes := freq.value)
    ensures freq.unit == "hours" ==> r == NoInterval.(hours := freq.value)
    ensures freq.unit == "days" ==> r == NoInterval.(days := freq.value)
    ensures freq.unit !in {"minutes", "hours", "days"} ==> r == NoInterval
  {
    match freq.unit
    case "minutes" => NoInterval.(minutes := freq.value)
    case "hours" => NoInterval.(hours := freq.value)
    case "days" => NoInterval.(days := freq.value)
    case _ => NoInterval
  }

  /** The number of fields of an interval that are set. */
  function SetFields(t: TimeBetweenCheck): nat {
    (if t.weeks != 0 then 1 else 0) + (if t.days != 0 then 1 else 0) + (if t.hours != 0 then 1 else 0)
    + (if t.minutes != 0 then 1 else 0) + (if t.seconds != 0 then 1 else 0)
  }

  /** At most one field of a mapped interval is set. */
  lemma MapFrequencySetsAtMostOne(freq: Frequency)
    ensures SetFields(MapFrequency(freq)) <= 1
    ensures SetFields(MapFrequency(freq)) == 1 <==> freq.unit in {"minutes", "hours", "days"} && freq.value != 0
  {
  }

  /** Reading a frequency back from an interval: the one set field and its unit. */
  function IntervalFrequency(t: TimeBetweenCheck): Option<Frequency> {
    if SetFields(t) != 1 || t.weeks != 0 || t.seconds != 0 then None
    else if t.minutes != 0 then Some(Frequency(t.minutes, "minutes"))
    else if t.hours != 0 then Some(Frequency(t.hours, "hours"))
    else Some(Frequency(t.days, "days"))
  }

  /** No supported, non-zero frequency is lost in translation. */
  lemma MapFrequencyRoundTrip(freq: Frequency)
    requires freq.unit in {"minutes", "hours", "days"} && freq.value != 0
    ensures IntervalFrequency(MapFrequency(freq)) == Some(freq)
  {
  }

  // ---------------------------------------------------------------------------
  // Requests and status codes.

  datatype Client = Client(baseUrl: string, apiKey: string)

  datatype Request = Request(verb: string, url: string, headers: seq<(string, string)>)

  datatype Exchange = SendFailed | Responded(status: int, body: string)

  /** The answer a create gives back; `uuid` is empty when the service's JSON has no uuid member. */
  datatype CreateAnswer = InvalidJson | UuidMember(uuid: string)

  datatype WatchError =
    | RequestFailed               // building or sending the request failed
    | ApiError(status: int, body: string)
    | ParseFailed

  const WatchPath: string := "/api/v1/watch"

  function CreateRequest(c: Client): (r: Request)
    ensures r.verb == "POST" && r.url == c.baseUrl + WatchPath
    ensures ("x-api-key", c.apiKey) in r.headers && ("Content-Type", "application/json") in r.headers
  {
    Request("POST", c.baseUrl + WatchPath, [("Content-Type", "application/json"), ("x-api-key", c.apiKey)])
  }

  function DeleteRequest(c: Client, uuid: string): (r: Request)
    ensures r.verb == "DELETE" && r.url == c.baseUrl + WatchPath + "/" + uuid
    ensures ("x-api-key", c.apiKey) in r.headers
  {
    Request("DELETE", c.baseUrl + WatchPath + "/" + uuid, [("x-api-key", c.apiKey)])
  }

  /** A create succeeds only on 200 or 201, and then yields the uuid the body carries. */
  function CreateWatchResult(x: Exchange, answer: CreateAnswer): (r: Result<string, WatchError>)
    ensures r.Ok? <==> x.Responded? && x.status in {200, 201} && answer.UuidMember?
    ensures r.Ok? ==> r.value == answer.uuid
    ensures x.Responded? && x.status !in {200, 201} ==> r == Err(ApiError(x.status, x.body))
  {
    match x
    case SendFailed => Err(RequestFailed)
    case Responded(status, body) =>
      if status != 200 && status != 201 then Err(ApiError(status, body))
      else if answer.InvalidJson? then Err(ParseFailed)
      else Ok(answer.uuid)
  }

  /** A delete succeeds only on 200. */
  function DeleteWatchResult(x: Exchange): (r: Result<(), WatchError>)
    ensures r.Ok? <==> x.Responded? && x.status == 200
    ensures x.Responded? && x.status != 200 ==> r == Err(ApiError(x.status, x.body))
  {
    match x
    case SendFailed => Err(RequestFailed)
    case Responded(status, body) =>
      if status != 200 then Err(ApiError(status, body)) else Ok(())
  }
}

=== FILE: dom.dfy ===
/**
 * The document snapshot that the element locator walks: elements with their tag
 * name, `id`, `class` attribute, parent and ordered children, together with the
 * counting queries (`querySelectorAll(...).length`) and the sibling order that
 * Selectors Level 3 defines for `:nth-of-type()` (section 6.6.5.4).
 */
module Dom {
  import opened Wrappers
  import opened Text

  /**
   * One element. `parent` and `children` are indices into the snapshot.
   * `classAttr` is the `class` attribute; `classNameIsString` is false for the
   * elements (SVG ones) whose `className` property is an object, not a string.
   * `inHtmlNamespace` is false for foreign (SVG, MathML) elements, whose
   * `tagName` keeps its case (`foreignObject`), while an HTML element's
   * `tagName` is its name in upper case.
   */
  datatype Element = Element(
    tagName: string,
    id: string,
    classAttr: string,
    classNameIsString: bool,
    inHtmlNamespace: bool,
    parent: Option<nat>,
    children: seq<nat>)

  /**
   * A quiescent snapshot of the elements a document's queries see, listed in
   * document order. `hasOwnerDocument` is false when `ownerDocument` is null.
   * `quirks` is true for a document in quirks mode, such as a page written
   * into the frame without a doctype.
   */
  datatype Tree = Tree(nodes: seq<Element>, hasOwnerDocument: bool, quirks: bool)

  /**
   * The name `x` of an id or class selector matches the attribute value
   * `value`. Following the HTML standard's rules on the case-sensitivity of
   * selectors, the comparison ignores ASCII case in a quirks-mode document and
   * is exact otherwise.
   */
  predicate NameMatches(t: Tree, value: string, x: string) {
    if t.quirks then ToLower(value) == ToLower(x) else value == x
  }

  /** Element `i` agrees with its parent and children, and lists no child twice. */
  ghost predicate ValidNode(t: Tree, i: nat)
    requires i < |t.nodes|
  {
    var e := t.nodes[i];
    && (e.parent.Some? ==> e.parent.value < i && i in t.nodes[e.parent.value].children)
    && (forall k | 0 <= k < |e.children| :: e.children[k] < |t.nodes| && t.nodes[e.children[k]].parent == Some(i))
    && (forall k, l | 0 <= k < l < |e.children| :: e.children[k] != e.children[l])
  }

  /** Every element is consistent; a parent precedes its children in document order. */
  ghost predicate Valid(t: Tree) {
    forall i | 0 <= i < |t.nodes| :: ValidNode(t, i)
  }

  /**
   * Element names that agree up to ASCII case agree exactly. `:nth-of-type()`
   * ranks count siblings with exactly the same name, while a type selector
   * matches an HTML element whatever its case; under this condition the two
   * views of "same name" coincide. A document holding both an HTML `a`
   * (`tagName` "A") and an SVG `a` (`tagName` "a") does not meet it.
   */
  ghost predicate CaseConsistent(t: Tree) {
    forall a, b | 0 <= a < |t.nodes| && 0 <= b < |t.nodes| ::
      ToLower(t.nodes[a].tagName) == ToLower(t.nodes[b].tagName) ==> t.nodes[a].tagName == t.nodes[b].tagName
  }

  ghost predicate InRange(t: Tree, kids: seq<nat>) {
    forall k | 0 <= k < |kids| :: kids[k] < |t.nodes|
  }

  predicate IsHtml(t: Tree, i: nat)
    requires i < |t.nodes|
  {
    ToLower(t.nodes[i].tagName) == "html"
  }

  /** The elements of the document that the id selector `#x` selects. */
  ghost function ElementsWithId(t: Tree, x: string): set<nat> {
    set j | 0 <= j < |t.nodes| && NameMatches(t, t.nodes[j].id, x)
  }

  /** `document.querySelectorAll("#" + CSS.escape(x)).length`. */
  function IdCount(t: Tree, x: string): nat {
    |set j | 0 <= j < |t.nodes| && NameMatches(t, t.nodes[j].id, x)|
  }

  /** `children.filter(child => child.tagName === tag)`. */
  function SameTagChildren(t: Tree, kids: seq<nat>, tag: string): (r: seq<nat>)
    requires InRange(t, kids)
    ensures |r| <= |kids|
    ensures forall k | 0 <= k < |r| :: r[k] in kids && t.nodes[r[k]].tagName == tag
    ensures forall c | c in kids && t.nodes[c].tagName == tag :: c in r
    decreases |kids|
  {
    if kids == [] then []
    else
      var rest := SameTagChildren(t, kids[1..], tag);
      if t.nodes[kids[0]].tagName == tag then [kids[0]] + rest else rest
  }

  /**
   * `Array.from(parent.children).filter(child => child.tagName === tag)` for the
   * parent of `c` and the tag name of `c`; empty when `c` has no parent.
   */
  function SameTagSiblings(t: Tree, c: nat): (r: seq<nat>)
    requires Valid(t) && c < |t.nodes|
    ensures forall k | 0 <= k < |r| :: r[k] < |t.nodes|
    ensures t.nodes[c].parent.Some? ==> c in r
  {
    assert ValidNode(t, c);
    match t.nodes[c].parent
    case None => []
    case Some(p) =>
      assert ValidNode(t, p);
      SameTagChildren(t, t.nodes[p].children, t.nodes[c].tagName)
  }

  /** Element `c` has a parent and that parent is the `<html>` element. */
  predicate ParentIsHtml(t: Tree, c: nat)
    requires Valid(t) && c < |t.nodes|
  {
    assert ValidNode(t, c);
    t.nodes[c].parent.Some? && IsHtml(t, t.nodes[c].parent.value)
  }

  /** `s.indexOf(x)`: the first position of `x`, or -1. */
  function IndexOf(s: seq<nat>, x: nat): (r: int)
    ensures -1 <= r < |s|
    ensures r == -1 <==> x !in s
    ensures r >= 0 ==> s[r] == x && x !in s[..r]
    decreases |s|
  {
    if s == [] then -1
    else if s[0] == x then 0
    else var r := IndexOf(s[1..], x); if r == -1 then -1 else r + 1
  }

  /**
   * The number of siblings with tag name `tag` that come before `n` in `kids`:
   * Selectors Level 3 counts these for `:nth-of-type()`.
   */
  function PrecedingSameType(t: Tree, kids: seq<nat>, n: nat, tag: string): nat
    requires InRange(t, kids)
    decreases |kids|
  {
    if kids == [] || kids[0] == n then 0
    else (if t.nodes[kids[0]].tagName == tag then 1 else 0) + PrecedingSameType(t, kids[1..], n, tag)
  }

  /**
   * Section 6.6.5.4 of Selectors Level 3: `:nth-of-type(k)` represents an
   * element that has a parent and k - 1 siblings of the same element name before it.
   */
  predicate IsNthOfType(t: Tree, n: nat, k: int)
    requires Valid(t) && n < |t.nodes|
  {
    var e := t.nodes[n];
    assert ValidNode(t, n);
    e.parent.Some? &&
    assert ValidNode(t, e.parent.value);
    k == 1 + PrecedingSameType(t, t.nodes[e.parent.value].children, n, e.tagName)
  }

  /** An element's position among its same-tag siblings is its rank of document order among them. */
  lemma {:induction false} IndexOfSameTag(t: Tree, kids: seq<nat>, n: nat, tag: string)
    requires InRange(t, kids) && n in kids && t.nodes[n].tagName == tag
    ensures IndexOf(SameTagChildren(t, kids, tag), n) == PrecedingSameType(t, kids, n, tag)
    decreases |kids|
  {
    if kids[0] != n {
      IndexOfSameTag(t, kids[1..], n, tag);
    }
  }

  /** Two distinct same-tag siblings never share a rank. */
  lemma {:induction false} RankDetermines(t: Tree, kids: seq<nat>, a: nat, b: nat, tag: string)
    requires InRange(t, kids)
    requires forall k, l | 0 <= k < l < |kids| :: kids[k] != kids[l]
    requires a in kids && b in kids
    requires t.nodes[a].tagName == tag && t.nodes[b].tagName == tag
    requires PrecedingSameType(t, kids, a, tag) == PrecedingSameType(t, kids, b, tag)
    ensures a == b
    decreases |kids|
  {
    if kids[0] != a && kids[0] != b {
      RankDetermines(t, kids[1..], a, b, tag);
    }
  }

  /** Only one element is selected by an id whose count is one. */
  lemma IdCountOne(t: Tree, x: string, a: nat, b: nat)
    requires IdCount(t, x) == 1
    requires a < |t.nodes| && b < |t.nodes| && NameMatches(t, t.nodes[a].id, x) && NameMatches(t, t.nodes[b].id, x)
    ensures a == b
  {
    var s := set j | 0 <= j < |t.nodes| && NameMatches(t, t.nodes[j].id, x);
    assert a in s && b in s;
    if a != b {
      assert {a, b} <= s;
      assert |{a, b}| == 2;
      SubsetCard({a, b}, s);
    }
  }

  lemma SubsetCard(a: set<nat>, b: set<nat>)
    requires a <= b
    ensures |a| <= |b|
  {
    if a != {} {
      var x :| x in a;
      SubsetCard(a - {x}, b - {x});
    }
  }
}

=== FILE: element_selector.dfy ===
/**
 * The standalone element selector page: a URL bar, a frame showing the page,
 * hover highlighting, click-to-pin and a Pin button that asks the backend to
 * watch the loaded URL. Each handler is a method on the page's state.
 *
 * Events arrive on a snapshot `t` of the frame's document; the target of an
 * event is an element index (or `None` for a null target), and the box the
 * browser reports for it is a parameter (`None` when measuring threw).
 */
module ElementSelectorPage {
  import opened Wrappers
  import opened Text
  import opened Dom
  import opened SelectorGenerator
  import opened Picker

  class ElementSelector {
    var url: string                   // the URL input
    var loadedUrl: string
    var isLoading: bool
    var loadingStatus: string
    var hoverRect: Option<Rect>
    var pinned: Option<PinnedElement>
    var error: Option<string>
    var proxyContent: Option<string>
    var dialogOpen: bool
    var dialogMessage: string
    var dialogKind: DialogKind
    var hovered: Option<nat>          // the element under the pointer, as last seen

    constructor ()
      ensures url == "" && loadedUrl == "" && !isLoading && loadingStatus == ""
      ensures hoverRect.None? && pinned.None? && error.None? && proxyContent.None?
      ensures !dialogOpen && dialogMessage == "" && dialogKind == Success && hovered.None?
    {
      url := "";
      loadedUrl := "";
      isLoading := false;
      loadingStatus := "";
      hoverRect := None;
      pinned := None;
      error := None;
      proxyContent := None;
      dialogOpen := false;
      dialogMessage := "";
      dialogKind := Success;
      hovered := None;
    }

    /** Typing in the URL bar. */
    method SetUrl(u: string)
      modifies this`url
      ensures url == u
    {
      url := u;
    }

    /**
     * The Load button: nothing for a blank input; otherwise the page resets
     * the pin, the hover, the error and the fetched content, and loads the
     * normalised URL.
     */
    method LoadUrl()
      modifies this`isLoading, this`loadingStatus, this`pinned, this`hoverRect, this`error
      modifies this`proxyContent, this`loadedUrl
      ensures Trim(old(url)) == "" ==>
        loadedUrl == old(loadedUrl) && isLoading == old(isLoading) && loadingStatus == old(loadingStatus)
        && hoverRect == old(hoverRect) && pinned == old(pinned) && error == old(error)
        && proxyContent == old(proxyContent)
      ensures Trim(old(url)) != "" ==>
        loadedUrl == NormalizeUrl(old(url)) && isLoading && loadingStatus == "Connecting..."
        && hoverRect.None? && pinned.None? && error.None? && proxyContent.None?
    {
      var trimmed := Trim(url);
      if trimmed == "" {
        return;
      }
      var normalized := NormalizeUrl(url);
      isLoading := true;
      loadingStatus := "Connecting...";
      pinned := None;
      hoverRect := None;
      error := None;
      proxyContent := None;
      loadedUrl := normalized;
    }

    /** The end of the proxy fetch started by a load: the page's HTML, or `None` when every proxy failed. */
    method FetchDone(html: Option<string>)
      modifies this`proxyContent, this`loadingStatus, this`error, this`isLoading
      ensures html.Some? ==>
        proxyContent == html && loadingStatus == "Rendering..." && error == old(error) && isLoading == old(isLoading)
      ensures html.None? ==>
        proxyContent == old(proxyContent) && loadingStatus == old(loadingStatus)
        && error == Some("Failed to load page. The site may block proxies.") && !isLoading
    {
      if html.Some? {
        proxyContent := html;
        loadingStatus := "Rendering...";
      } else {
        error := Some("Failed to load page. The site may block proxies.");
        isLoading := false;
      }
    }

    /**
     * Writing the fetched HTML into the frame, once it is ready: only when
     * there is fetched content. Listeners are wired separately, afterwards.
     */
    method WriteContent(outcome: WriteOutcome)
      modifies this`isLoading, this`loadingStatus, this`error
      ensures old(proxyContent).None? || old(proxyContent).value == "" || outcome.NoDocument? ==>
        isLoading == old(isLoading) && loadingStatus == old(loadingStatus) && error == old(error)
      ensures old(proxyContent).Some? && old(proxyContent).value != "" && outcome.Written? ==>
        !isLoading && loadingStatus == "" && error == old(error)
      ensures old(proxyContent).Some? && old(proxyContent).value != "" && outcome.WriteFailed? ==>
        !isLoading && loadingStatus == old(loadingStatus) && error == Some("Failed to render page content")
    {
      if proxyContent.None? || proxyContent.value == "" {
        return;
      }
      match outcome
      case NoDocument =>
      case Written =>
        isLoading := false;
        loadingStatus := "";
      case WriteFailed =>
        error := Some("Failed to render page content");
        isLoading := false;
    }

    /** Wiring the handlers into the frame's document. */
    method SetupListeners(access: FrameAccess)
      modifies this`error
      ensures access.NoFrame? ==> error == old(error)
      ensures access.Blocked? ==> error == Some(CannotAccess)
      ensures access.Attached? ==> error.None?
    {
      match access
      case NoFrame =>
      case Blocked => error := Some(CannotAccess);
      case Attached => error := None;
    }

    /** The frame's own load event: acts only when no fetched content is being shown. */
    method IframeLoad(access: FrameAccess)
      modifies this`isLoading, this`error
      ensures old(proxyContent).Some? && old(proxyContent).value != "" ==>
        isLoading == old(isLoading) && error == old(error)
      ensures old(proxyContent).None? || old(proxyContent).value == "" ==>
        !isLoading
        && error == (match access case NoFrame => old(error) case Blocked => Some(CannotAccess) case Attached => None)
    {
      if proxyContent.None? || proxyContent.value == "" {
        isLoading := false;
        SetupListeners(access);
      }
    }

    /**
     * The pointer moving onto `target`: nothing when it is null or the element
     * already hovered; html and body clear the highlight; anything else
     * becomes the hovered element with the box `rect`.
     */
    method MouseMove(t: Tree, target: Option<nat>, rect: Option<Rect>)
      requires target.Some? ==> target.value < |t.nodes|
      modifies this`hoverRect, this`hovered
      ensures target.None? || target == old(hovered) ==> hoverRect == old(hoverRect) && hovered == old(hovered)
      ensures target.Some? && target != old(hovered) && IsSkippedTag(t.nodes[target.value].tagName) ==>
        hoverRect.None? && hovered.None?
      ensures target.Some? && target != old(hovered) && !IsSkippedTag(t.nodes[target.value].tagName) ==>
        hoverRect == rect && hovered == target
    {
      if target.None? || target == hovered {
        return;
      }
      if IsSkippedTag(t.nodes[target.value].tagName) {
        hoverRect := None;
        hovered := None;
        return;
      }
      hovered := target;
      hoverRect := rect;
    }

    /** The pointer leaving the document. */
    method MouseLeave()
      modifies this`hoverRect, this`hovered
      ensures hoverRect.None? && hovered.None?
    {
      hoverRect := None;
      hovered := None;
    }

    /**
     * A click on `target`: ignored for a null target, for html and body, and
     * when the box cannot be measured; otherwise toggles the pin of the
     * element's generated selector.
     */
    method Click(t: Tree, target: Option<nat>, rect: Option<Rect>, esc: string -> string)
      requires Valid(t) && (target.Some? ==> target.value < |t.nodes|)
      modifies this`pinned
      ensures target.None? || IsSkippedTag(t.nodes[target.value].tagName) || rect.None? ==> pinned == old(pinned)
      ensures target.Some? && !IsSkippedTag(t.nodes[target.value].tagName) && rect.Some? ==>
        pinned == Toggle(old(pinned), PinnedElement(Render(esc, Walk(t, target.value)), rect.value,
                                                    ToLower(t.nodes[target.value].tagName)))
    {
      if target.None? {
        return;
      }
      var tagName := ToLower(t.nodes[target.value].tagName);
      if tagName == "html" || tagName == "body" {
        return;
      }
      if rect.None? {
        return;
      }
      var selector := GenerateSelector(t, target.value, esc);
      if PinnedSelector(pinned) == Some(selector) {
        pinned := None;
      } else {
        pinned := Some(PinnedElement(selector, rect.value, tagName));
      }
    }

    /** The Pin button: nothing before a URL is loaded; otherwise a dialog describing the backend's reply. */
    method PinClick(reply: PinReply)
      modifies this`dialogOpen, this`dialogMessage, this`dialogKind
      ensures loadedUrl == "" ==>
        dialogOpen == old(dialogOpen) && dialogMessage == old(dialogMessage) && dialogKind == old(dialogKind)
      ensures loadedUrl != "" ==> dialogOpen && (dialogKind, dialogMessage) == PinDialog(reply)
    {
      if loadedUrl == "" {
        return;
      }
      var d := PinDialog(reply);
      dialogKind, dialogMessage := d.0, d.1;
      dialogOpen := true;
    }
  }
}

=== FILE: integrations.dfy ===
/**
 * The integrations page: the fixed list of integrations, the on/off map the
 * page starts from, the toggle on each card, and the grouping of the cards
 * under their three categories.
 */
module IntegrationsPage {
  import opened Store

  datatype Category = Notifications | Automation | Storage

  /** An integration as the page lists it; description and icon are presentation only. */
  datatype Integration = Integration(id: string, name: string, connected: bool, category: Category)

  const Integrations: seq<Integration> := [
    Integration("slack", "Slack", true, Notifications),
    Integration("discord", "Discord", false, Notifications),
    Integration("email", "Email", true, Notifications),
    Integration("telegram", "Telegram", false, Notifications),
    Integration("webhook", "Webhooks", true, Automation),
    Integration("zapier", "Zapier", false, Automation),
    Integration("google-sheets", "Google Sheets", false, Storage),
    Integration("notion", "Notion", false, Storage)
  ]

  predicate IdsDistinct(list: seq<Integration>) {
    forall i, j | 0 <= i < j < |list| :: list[i].id != list[j].id
  }

  /**
   * `Object.fromEntries(list.map(i => [i.id, i.connected]))`: one entry per
   * id, where a later entry for the same id overrides an earlier one.
   */
  function InitialStates(list: seq<Integration>): (m: map<string, bool>)
    ensures m.Keys == set i | i in list :: i.id
    decreases |list|
  {
    if list == [] then map[]
    else
      var init := list[..|list| - 1];
      var last := list[|list| - 1];
      assert forall i | i in list :: i in init || i == last;
      assert forall i | i in init :: i in list;
      InitialStates(init)[last.id := last.connected]
  }

  /** An entry whose id does not occur again later keeps its own flag. */
  lemma {:induction false} InitialStatesLastWins(list: seq<Integration>, k: nat)
    requires k < |list|
    requires forall j | k < j < |list| :: list[j].id != list[k].id
    ensures InitialStates(list)[list[k].id] == list[k].connected
    decreases |list|
  {
    var init := list[..|list| - 1];
    if k < |list| - 1 {
      assert init[k] == list[k];
      InitialStatesLastWins(init, k);
    }
  }

  /** The page's ids are distinct. */
  lemma IntegrationIdsDistinct()
    ensures IdsDistinct(Integrations)
  {
  }

  /** The page starts with every integration at its listed flag, and nothing else. */
  lemma InitialStatesOfPage()
    ensures InitialStates(Integrations).Keys == set i | i in Integrations :: i.id
    ensures forall i | i in Integrations :: InitialStates(Integrations)[i.id] == i.connected
  {
    IntegrationIdsDistinct();
    forall i | i in Integrations
      ensures InitialStates(Integrations)[i.id] == i.connected
    {
      var k :| 0 <= k < |Integrations| && Integrations[k] == i;
      InitialStatesLastWins(Integrations, k);
    }
  }

  /**
   * `{...prev, [id]: !prev[id]}`: the entry for `id` is negated, an absent
   * one (read as `undefined`) becomes `true`, and every other entry stays.
   */
  function Toggled(states: map<string, bool>, id: string): (r: map<string, bool>)
    ensures r.Keys == states.Keys + {id}
    ensures id in states ==> r[id] == !states[id]
    ensures id !in states ==> r[id]
    ensures forall k | k in states && k != id :: r[k] == states[k]
  {
    states[id := if id in states then !states[id] else true]
  }

  /** Toggling an integration twice restores the map. */
  lemma ToggleTwice(states: map<string, bool>, id: string)
    requires id in states
    ensures Toggled(Toggled(states, id), id) == states
  {
  }

  /** Toggling two different integrations, in either order, has the same effect. */
  lemma TogglesCommute(states: map<string, bool>, a: string, b: string)
    requires a != b
    ensures Toggled(Toggled(states, a), b) == Toggled(Toggled(states, b), a)
  {
  }

  /** The filter `i.category === category`. */
  function InCategory(c: Category): Integration -> bool {
    (i: Integration) => i.category == c
  }

  /** The cards shown under category `c`, in list order. */
  function Section(list: seq<Integration>, c: Category): seq<Integration> {
    Filter(list, InCategory(c))
  }

  /** Every integration appears under exactly one category, and the sections together hold the whole list. */
  lemma {:induction false} SectionsPartition(list: seq<Integration>)
    ensures |Section(list, Notifications)| + |Section(list, Automation)| + |Section(list, Storage)| == |list|
    ensures forall i, c | i in list :: i in Section(list, c) <==> c == i.category
    decreases |list|
  {
    if list != [] {
      SectionsPartition(list[1..]);
    }
  }

  /** The page's state: which integrations are switched on. */
  class IntegrationsState {
    var connectedStates: map<string, bool>

    constructor ()
      ensures connectedStates == InitialStates(Integrations)
    {
      connectedStates := InitialStates(Integrations);
    }

    /** The switch on a card. */
    method ToggleConnection(id: string)
      modifies this
      ensures connectedStates == Toggled(old(connectedStates), id)
    {
      connectedStates := connectedStates[id := if id in connectedStates then !connectedStates[id] else true];
    }
  }
}

=== FILE: models.dfy ===
/**
 * The records the backend stores and exchanges: monitors, their check
 * frequency and duration, the create/update request, alerts and the alert
 * listing's response entries. Times are instants given as integers, and
 * object ids are given by their canonical lower-case hexadecimal text.
 */
module Models {
  import opened Wrappers

  /** A 12-byte document id, written as 24 lower-case hexadecimal digits. */
  datatype ObjectId = ObjectId(hex: string)

  /** How often a monitor is checked: `value` units of `unit` ("minutes", "hours", …). */
  datatype Frequency = Frequency(value: int, unit: string)

  /** How long a monitor runs: "forever", "until_date" (with an end date) or "first_change". */
  datatype Duration = Duration(kind: string, endDate: string)

  datatype Monitor = Monitor(
    id: ObjectId,
    userId: string,
    websiteName: string,
    targetType: string,
    url: string,
    selector: string,
    status: string,
    lastChecked: int,
    frequency: Frequency,
    hasChanged: bool,
    createdAt: int,
    updatedAt: int,
    changeDetectionUuid: string,
    duration: Option<Duration>,
    alertsEnabled: bool,
    notificationMethod: string,
    detectionMode: string)

  /** The body of a create or update request; absent JSON members decode to zero values. */
  datatype CreateMonitorRequest = CreateMonitorRequest(
    websiteName: string,
    targetType: string,
    url: string,
    selector: string,
    frequency: Frequency,
    duration: Duration,
    alertsEnabled: bool,
    notificationMethod: string,
    detectionMode: string)

  /** A stored alert: the webhook's raw body is kept unchanged as `payload`. */
  datatype Alert = Alert(
    id: ObjectId,
    userId: string,
    monitorId: ObjectId,
    checked: bool,
    receivedAt: int,
    payload: string)

  /** A value inside a decoded payload document. */
  datatype DocValue = DocString(s: string) | DocOther(text: string)

  type Document = map<string, DocValue>

  /** One entry of the alert listing: the alert, its monitor's name and its decoded payload. */
  datatype AlertResponse = AlertResponse(
    id: ObjectId,
    userId: string,
    monitorId: ObjectId,
    monitorName: string,
    checked: bool,
    receivedAt: int,
    payload: Document)
}

/** The HTTP surface the handlers share: request methods and replies. */
module Http {
  datatype Method = Get | Post | Put | Delete | Options | OtherMethod(name: string)

  /**
   * A handler's reply: the empty 200 of a CORS preflight, an error status
   * with its plain-text message, or a success status with its JSON value.
   */
  datatype Reply<T> =
    | Preflight
    | Failure(status: int, message: string)
    | Success(status: int, value: T)

  const MethodNotAllowed: int := 405
  const BadRequest: int := 400
  const Unauthorized: int := 401
  const NotFound: int := 404
  const InternalError: int := 500
}

=== FILE: monitor_form.dfy ===
/**
 * The monitor configuration form: the fixed list of check frequencies, the
 * lookup from a select value back to a frequency, the form's initial state
 * and the configuration it submits.
 */
module MonitorForm {
  import opened Wrappers
  import opened Text
  import opened Models

  datatype FrequencyOption = FrequencyOption(caption: string, value: nat, unit: string)

  datatype DurationType = Forever | UntilDate | FirstChange

  /** The submitted duration: its type, with the end date only when one applies. */
  datatype ConfigDuration = ConfigDuration(kind: DurationType, endDate: Option<string>)

  datatype MonitorConfig = MonitorConfig(
    selector: string,
    url: string,
    websiteName: string,
    frequency: Frequency,
    duration: ConfigDuration,
    alertsEnabled: bool,
    notificationMethod: string,
    detectionMode: string)

  const FrequencyOptions: seq<FrequencyOption> := [
    FrequencyOption("5 minutes", 5, "minutes"),
    FrequencyOption("15 minutes", 15, "minutes"),
    FrequencyOption("1 hour", 1, "hours"),
    FrequencyOption("6 hours", 6, "hours"),
    FrequencyOption("24 hours", 24, "hours")
  ]

  function ToFrequency(o: FrequencyOption): Frequency {
    Frequency(o.value, o.unit)
  }

  /** The select's value for a frequency: `"<value>-<unit>"`. */
  function FrequencyKey(f: Frequency): string {
    IntToString(f.value) + "-" + f.unit
  }

  function OptionKey(o: FrequencyOption): string {
    FrequencyKey(ToFrequency(o))
  }

  /** `options.findIndex`: the first option whose key is `key`, or -1. */
  function FindIndex(options: seq<FrequencyOption>, key: string): (r: int)
    ensures -1 <= r < |options|
    ensures r == -1 <==> forall j | 0 <= j < |options| :: OptionKey(options[j]) != key
    ensures r >= 0 ==> OptionKey(options[r]) == key && forall j | 0 <= j < r :: OptionKey(options[j]) != key
  {
    if options == [] then -1
    else if OptionKey(options[0]) == key then 0
    else
      var r := FindIndex(options[1..], key);
      if r == -1 then -1 else r + 1
  }

  /** `options.find`: the first option whose key is `key`. */
  function FindOption(options: seq<FrequencyOption>, key: string): (r: Option<FrequencyOption>)
    ensures r.None? <==> forall j | 0 <= j < |options| :: OptionKey(options[j]) != key
    ensures r.Some? ==> r.value in options && OptionKey(r.value) == key
  {
    var i := FindIndex(options, key);
    if i < 0 then None else Some(options[i])
  }

  predicate KeysDistinct(options: seq<FrequencyOption>) {
    forall i, j | 0 <= i < j < |options| :: OptionKey(options[i]) != OptionKey(options[j])
  }

  /** Different numbers print differently. */
  lemma {:induction false} NatToStringInjective(a: nat, b: nat)
    requires NatToString(a) == NatToString(b)
    ensures a == b
    decreases a
  {
    var sa, sb := NatToString(a), NatToString(b);
    if a < 10 && b < 10 {
      assert sa[0] == DigitChar(a) && sb[0] == DigitChar(b);
    } else if a >= 10 && b >= 10 {
      assert sa[..|sa| - 1] == NatToString(a / 10) && sb[..|sb| - 1] == NatToString(b / 10);
      NatToStringInjective(a / 10, b / 10);
      assert DigitChar(a % 10) == sa[|sa| - 1] == sb[|sb| - 1] == DigitChar(b % 10);
    }
  }

  /** The characters of `digits + "-" + unit` around the dash. */
  lemma KeyCharAt(digits: string, unit: string, k: nat)
    ensures k < |digits| ==> (digits + "-" + unit)[k] == digits[k]
    ensures k == |digits| ==> (digits + "-" + unit)[k] == '-'
  {
  }

  /** An option's key determines its value and unit: the digits end at the first `-`. */
  lemma OptionKeyInjective(a: FrequencyOption, b: FrequencyOption)
    requires OptionKey(a) == OptionKey(b)
    ensures a.value == b.value && a.unit == b.unit
  {
    var sa, sb := NatToString(a.value), NatToString(b.value);
    var ka, kb := OptionKey(a), OptionKey(b);
    assert ka == sa + "-" + a.unit && kb == sb + "-" + b.unit;
    // A shorter number would put its `-` where the longer one has a digit.
    KeyCharAt(sa, a.unit, |sa|);
    KeyCharAt(sb, b.unit, |sb|);
    KeyCharAt(sa, a.unit, |sb|);
    KeyCharAt(sb, b.unit, |sa|);
    assert |sa| == |sb|;
    assert sa == ka[..|sa|] && sb == kb[..|sb|];
    NatToStringInjective(a.value, b.value);
    assert a.unit == ka[|sa| + 1..] && b.unit == kb[|sb| + 1..];
  }

  /** No two frequency options render the same key. */
  lemma FrequencyKeysDistinct()
    ensures KeysDistinct(FrequencyOptions)
  {
    forall i, j | 0 <= i < j < |FrequencyOptions|
      ensures OptionKey(FrequencyOptions[i]) != OptionKey(FrequencyOptions[j])
    {
      if OptionKey(FrequencyOptions[i]) == OptionKey(FrequencyOptions[j]) {
        OptionKeyInjective(FrequencyOptions[i], FrequencyOptions[j]);
        assert false;
      }
    }
  }

  /** With distinct keys, looking up an option's own key finds that option. */
  lemma FindOwnKey(options: seq<FrequencyOption>, i: nat)
    requires KeysDistinct(options) && i < |options|
    ensures FindOption(options, OptionKey(options[i])) == Some(options[i])
  {
    var r := FindIndex(options, OptionKey(options[i]));
  }

  /** Choosing any listed option in the select sets exactly that option's frequency. */
  lemma SelectRoundTrip(i: nat)
    requires i < |FrequencyOptions|
    ensures FindOption(FrequencyOptions, OptionKey(FrequencyOptions[i])) == Some(FrequencyOptions[i])
  {
    FrequencyKeysDistinct();
    FindOwnKey(FrequencyOptions, i);
  }

  /** The initial frequency, one hour, is a listed option, so the select starts on a real entry. */
  lemma InitialFrequencyListed()
    ensures FindOption(FrequencyOptions, FrequencyKey(Frequency(1, "hours"))) == Some(FrequencyOptions[2])
    ensures ToFrequency(FrequencyOptions[2]) == Frequency(1, "hours")
  {
    SelectRoundTrip(2);
  }

  /** The form's state; `selector`, `url` and `websiteName` come from the page that opened it. */
  class CreateMonitorForm {
    const selector: string
    const url: string
    const websiteName: string
    var frequency: Frequency
    var durationType: DurationType
    var endDate: string
    var alertsEnabled: bool
    var notificationMethod: string
    var detectionMode: string

    constructor (selector: string, url: string, websiteName: string)
      ensures this.selector == selector && this.url == url && this.websiteName == websiteName
      ensures frequency == Frequency(1, "hours") && durationType == Forever && endDate == ""
      ensures alertsEnabled && notificationMethod == "email" && detectionMode == "text"
    {
      this.selector := selector;
      this.url := url;
      this.websiteName := websiteName;
      frequency := Frequency(1, "hours");
      durationType := Forever;
      endDate := "";
      alertsEnabled := true;
      notificationMethod := "email";
      detectionMode := "text";
    }

    /** The select changed to `value`: take the matching option's frequency, or keep the current one. */
    method HandleFrequencyChange(value: string)
      modifies this`frequency
      ensures FindOption(FrequencyOptions, value).None? ==> frequency == old(frequency)
      ensures FindOption(FrequencyOptions, value).Some? ==>
        frequency == ToFrequency(FindOption(FrequencyOptions, value).value)
    {
      var option := FindOption(FrequencyOptions, value);
      if option.Some? {
        frequency := Frequency(option.value.value, option.value.unit);
      }
    }

    /** The configuration the form submits. */
    method HandleSubmit() returns (config: MonitorConfig)
      ensures config.selector == selector && config.url == url && config.websiteName == websiteName
      ensures config.frequency == frequency && config.duration.kind == durationType
      ensures config.duration.endDate.Some? <==> durationType == UntilDate && endDate != ""
      ensures config.duration.endDate.Some? ==> config.duration.endDate.value == endDate
      ensures config.alertsEnabled == alertsEnabled
      ensures config.notificationMethod == notificationMethod && config.detectionMode == detectionMode
    {
      var duration := ConfigDuration(durationType, None);
      if durationType == UntilDate && endDate != "" {
        duration := duration.(endDate := Some(endDate));
      }
      config := MonitorConfig(selector, url, websiteName, frequency, duration,
                              alertsEnabled, notificationMethod, detectionMode);
    }
  }
}

=== FILE: monitors.dfy ===
/**
 * The monitor endpoints of the backend: listing a user's monitors, creating
 * one, and reading, updating or deleting one by id.
 *
 * The session check is a parameter (`Some(userId)` for a valid session,
 * `None` when verification failed), as are the decoded request body (`None`
 * when it is not valid JSON for the request type), the current time and the
 * id a new document receives. Inserting a document whose id is already used
 * fails, as the collection's unique `_id` index makes it.
 */
module Monitors {
  import opened Wrappers
  import opened Text
  import opened Models
  import opened Http
  import opened Store

  const MonitorsPrefix: string := "/api/monitors/"
  const NotAllowed: string := "Method not allowed"
  const NoSession: string := "Unauthorized"
  const InvalidBody: string := "Invalid request body"
  const MissingFields: string := "Missing required fields: websiteName, targetType, url"
  const MonitorNotFound: string := "Monitor not found"
  const DeletedMessage: string := "Monitor deleted successfully"

  // ---------------------------------------------------------------------------
  // Object ids.

  predicate IsHexDigit(c: char) {
    '0' <= c <= '9' || 'a' <= c <= 'f' || 'A' <= c <= 'F'
  }

  /** An id's canonical text: 24 lower-case hexadecimal digits. */
  predicate IsCanonicalHex(s: string) {
    |s| == 24 && forall k | 0 <= k < |s| :: '0' <= s[k] <= '9' || 'a' <= s[k] <= 'f'
  }

  /** `primitive.ObjectIDFromHex`: 24 hexadecimal digits in either case, else an error. */
  function ObjectIdFromHex(s: string): (r: Option<ObjectId>)
    ensures r.Some? <==> |s| == 24 && forall k | 0 <= k < |s| :: IsHexDigit(s[k])
    ensures r.Some? ==> IsCanonicalHex(r.value.hex)
  {
    if |s| == 24 && forall k | 0 <= k < |s| :: IsHexDigit(s[k]) then Some(ObjectId(ToLower(s))) else None
  }

  /** An id's own text parses back to that id. */
  lemma ObjectIdRoundTrip(id: ObjectId)
    requires IsCanonicalHex(id.hex)
    ensures ObjectIdFromHex(id.hex) == Some(id)
  {
    assert ToLower(id.hex) == id.hex;
  }

  /** The suffixes that are rejected before parsing can never be ids anyway. */
  lemma ReservedSuffixesAreNotIds()
    ensures ObjectIdFromHex("").None? && ObjectIdFromHex("create").None?
  {
    assert |"create"| != 24;
  }

  // ---------------------------------------------------------------------------
  // Queries.

  /** The filter `{"userId": user}`. */
  function OwnedBy(user: string): Monitor -> bool {
    (m: Monitor) => m.userId == user
  }

  /** The filter `{"_id": id, "userId": user}`. */
  function OwnedWithId(id: ObjectId, user: string): Monitor -> bool {
    (m: Monitor) => m.id == id && m.userId == user
  }

  /** The filter `{"_id": id}`. */
  function WithId(id: ObjectId): Monitor -> bool {
    (m: Monitor) => m.id == id
  }

  predicate IdTaken(ms: seq<Monitor>, id: ObjectId) {
    exists k | 0 <= k < |ms| :: ms[k].id == id
  }

  // ---------------------------------------------------------------------------
  // Listing.

  /** A user's monitors: exactly the stored ones that user owns, possibly none. */
  method ListMonitors(db: Collections, verb: Method, session: Option<string>) returns (r: Reply<seq<Monitor>>)
    ensures verb.Options? ==> r.Preflight?
    ensures !verb.Options? && !verb.Get? ==> r == Failure(MethodNotAllowed, NotAllowed)
    ensures verb.Get? && session.None? ==> r == Failure(Unauthorized, NoSession)
    ensures verb.Get? && session.Some? ==> r.Success? && r.status == 200
    ensures r.Success? ==> forall m | m in r.value :: m in db.monitors && m.userId == session.value
    ensures r.Success? ==> forall m | m in db.monitors && m.userId == session.value :: m in r.value
  {
    if verb.Options? {
      return Preflight;
    }
    if !verb.Get? {
      return Failure(MethodNotAllowed, NotAllowed);
    }
    if session.None? {
      return Failure(Unauthorized, NoSession);
    }
    var found := Filter(db.monitors, OwnedBy(session.value));
    r := Success(200, found);
  }

  // ---------------------------------------------------------------------------
  // Creation.

  predicate HasRequiredFields(req: CreateMonitorRequest) {
    req.websiteName != "" && req.targetType != "" && req.url != ""
  }

  /** A zero frequency means five minutes; any other value, negative ones included, stands. */
  function DefaultFrequency(f: Frequency): (r: Frequency)
    ensures f.value == 0 ==> r == Frequency(5, "minutes")
    ensures f.value != 0 ==> r == f
    ensures r.value != 0
  {
    if f.value == 0 then Frequency(5, "minutes") else f
  }

  /**
   * The document a create stores: identity from the session and the new id,
   * content from the request, an active unchanged status and one timestamp
   * for all three times. Duration, alerts, notification method and detection
   * mode are not copied.
   */
  function NewMonitor(req: CreateMonitorRequest, userId: string, id: ObjectId, now: int): (m: Monitor)
    ensures m.id == id && m.userId == userId
    ensures m.websiteName == req.websiteName && m.targetType == req.targetType
    ensures m.url == req.url && m.selector == req.selector
    ensures m.status == "active" && !m.hasChanged
    ensures m.lastChecked == now && m.createdAt == now && m.updatedAt == now
    ensures m.frequency == DefaultFrequency(req.frequency) && m.frequency.value != 0
    ensures m.changeDetectionUuid == "" && m.duration.None? && !m.alertsEnabled
    ensures m.notificationMethod == "" && m.detectionMode == ""
  {
    Monitor(id, userId, req.websiteName, req.targetType, req.url, req.selector, "active", now,
            DefaultFrequency(req.frequency), false, now, now, "", None, false, "", "")
  }

  /**
   * POST /api/monitors/create. Rejections come in the order method, session,
   * body, required fields; a valid request appends the new monitor unless its
   * id is taken.
   */
  method CreateMonitor(db: Collections, verb: Method, session: Option<string>,
                       body: Option<CreateMonitorRequest>, id: ObjectId, now: int)
    returns (r: Reply<Monitor>)
    requires MonitorIdsDistinct(db.monitors)
    modifies db`monitors
    ensures MonitorIdsDistinct(db.monitors)
    ensures verb.Options? ==> r.Preflight?
    ensures !verb.Options? && !verb.Post? ==> r == Failure(MethodNotAllowed, NotAllowed)
    ensures verb.Post? && session.None? ==> r == Failure(Unauthorized, NoSession)
    ensures verb.Post? && session.Some? && body.None? ==> r == Failure(BadRequest, InvalidBody)
    ensures verb.Post? && session.Some? && body.Some? && !HasRequiredFields(body.value) ==>
      r == Failure(BadRequest, MissingFields)
    ensures verb.Post? && session.Some? && body.Some? && HasRequiredFields(body.value) && IdTaken(old(db.monitors), id) ==>
      r == Failure(InternalError, "Failed to create monitor")
    ensures verb.Post? && session.Some? && body.Some? && HasRequiredFields(body.value) && !IdTaken(old(db.monitors), id) ==>
      r == Success(201, NewMonitor(body.value, session.value, id, now))
    ensures r.Success? ==> db.monitors == old(db.monitors) + [r.value]
    ensures !r.Success? ==> db.monitors == old(db.monitors)
  {
    if verb.Options? {
      return Preflight;
    }
    if !verb.Post? {
      return Failure(MethodNotAllowed, NotAllowed);
    }
    if session.None? {
      return Failure(Unauthorized, NoSession);
    }
    if body.None? {
      return Failure(BadRequest, InvalidBody);
    }
    var req := body.value;
    if req.websiteName == "" || req.targetType == "" || req.url == "" {
      return Failure(BadRequest, MissingFields);
    }
    if req.frequency.value == 0 {
      req := req.(frequency := Frequency(5, "minutes"));
    }
    var monitor := Monitor(id, session.value, req.websiteName, req.targetType, req.url, req.selector,
                           "active", now, req.frequency, false, now, now, "", None, false, "", "");
    if FirstIndex(db.monitors, WithId(id)) >= 0 {
      return Failure(InternalError, "Failed to create monitor");
    }
    db.monitors := db.monitors + [monitor];
    r := Success(201, monitor);
  }

  // ---------------------------------------------------------------------------
  // The partial update.

  datatype FieldValue = TimeValue(time: int) | TextValue(text: string) | FrequencyValue(frequency: Frequency)

  /** The fields a `$set` built from a request can touch. */
  datatype Field = UpdatedAt | WebsiteName | TargetType | Url | Selector | FrequencyField

  const UpdateFields: set<Field> := {UpdatedAt, WebsiteName, TargetType, Url, Selector, FrequencyField}

  /** A field's key in the stored document. */
  function Key(f: Field): (k: string)
    ensures k != ""
  {
    match f
    case UpdatedAt => "updatedAt"
    case WebsiteName => "websiteName"
    case TargetType => "targetType"
    case Url => "url"
    case Selector => "selector"
    case FrequencyField => "frequency"
  }

  /** Distinct fields have distinct keys, so a `$set` keyed by `Field` is one keyed by strings. */
  lemma KeyInjective(f: Field, g: Field)
    requires Key(f) == Key(g)
    ensures f == g
  {
    match f
    case UpdatedAt => assert Key(g)[0] == 'u' && Key(g)[1] == 'p';
    case WebsiteName => assert Key(g)[0] == 'w';
    case TargetType => assert Key(g)[0] == 't';
    case Url => assert Key(g)[0] == 'u' && Key(g)[1] == 'r';
    case Selector => assert Key(g)[0] == 's';
    case FrequencyField => assert Key(g)[0] == 'f';
  }

  /** Whether a request sets field `f`: strings when non-empty, the frequency when its value is positive. */
  predicate RequestSets(req: CreateMonitorRequest, f: Field) {
    match f
    case UpdatedAt => true
    case WebsiteName => req.websiteName != ""
    case TargetType => req.targetType != ""
    case Url => req.url != ""
    case Selector => req.selector != ""
    case FrequencyField => req.frequency.value > 0
  }

  function RequestValue(req: CreateMonitorRequest, now: int, f: Field): FieldValue {
    match f
    case UpdatedAt => TimeValue(now)
    case WebsiteName => TextValue(req.websiteName)
    case TargetType => TextValue(req.targetType)
    case Url => TextValue(req.url)
    case Selector => TextValue(req.selector)
    case FrequencyField => FrequencyValue(req.frequency)
  }

  /**
   * The `$set` document of an update: the time, and each field the request
   * gives a value for.
   */
  function UpdateDocument(req: CreateMonitorRequest, now: int): (fields: map<Field, FieldValue>)
    ensures UpdatedAt in fields && fields[UpdatedAt] == TimeValue(now)
    ensures forall f: Field :: f in fields <==> RequestSets(req, f)
    ensures forall f | f in fields :: fields[f] == RequestValue(req, now, f)
  {
    map f | f in UpdateFields && RequestSets(req, f) :: RequestValue(req, now, f)
  }

  /** A document with the update's keys and values is the update's document. */
  lemma UpdateDocumentDetermined(fields: map<Field, FieldValue>, req: CreateMonitorRequest, now: int)
    requires forall f: Field :: f in fields <==> RequestSets(req, f)
    requires forall f | f in fields :: fields[f] == RequestValue(req, now, f)
    ensures fields == UpdateDocument(req, now)
  {
  }

  /** `updateMonitor`'s construction of the `$set` document, one guarded field at a time. */
  method BuildUpdate(req: CreateMonitorRequest, now: int) returns (fields: map<Field, FieldValue>)
    ensures fields == UpdateDocument(req, now)
  {
    fields := map[UpdatedAt := TimeValue(now)];
    if req.websiteName != "" {
      fields := fields[WebsiteName := TextValue(req.websiteName)];
    }
    if req.targetType != "" {
      fields := fields[TargetType := TextValue(req.targetType)];
    }
    if req.url != "" {
      fields := fields[Url := TextValue(req.url)];
    }
    if req.selector != "" {
      fields := fields[Selector := TextValue(req.selector)];
    }
    if req.frequency.value > 0 {
      fields := fields[FrequencyField := FrequencyValue(req.frequency)];
    }
    UpdateDocumentDetermined(fields, req, now);
  }

  function TextField(fields: map<Field, FieldValue>, f: Field, current: string): string {
    if f in fields && fields[f].TextValue? then fields[f].text else current
  }

  /** `$set` applied to a stored monitor: each listed field is replaced, every other one kept. */
  function ApplySet(m: Monitor, fields: map<Field, FieldValue>): Monitor {
    m.(websiteName := TextField(fields, WebsiteName, m.websiteName),
       targetType := TextField(fields, TargetType, m.targetType),
       url := TextField(fields, Url, m.url),
       selector := TextField(fields, Selector, m.selector),
       frequency := if FrequencyField in fields && fields[FrequencyField].FrequencyValue? then fields[FrequencyField].frequency else m.frequency,
       updatedAt := if UpdatedAt in fields && fields[UpdatedAt].TimeValue? then fields[UpdatedAt].time else m.updatedAt)
  }

  /**
   * An update stamps the time, takes every non-empty string and a positive
   * frequency from the request, and leaves every other field as it was.
   */
  lemma UpdateEffect(m: Monitor, req: CreateMonitorRequest, now: int)
    ensures var u := ApplySet(m, UpdateDocument(req, now));
      && u.updatedAt == now
      && u.websiteName == (if req.websiteName != "" then req.websiteName else m.websiteName)
      && u.targetType == (if req.targetType != "" then req.targetType else m.targetType)
      && u.url == (if req.url != "" then req.url else m.url)
      && u.selector == (if req.selector != "" then req.selector else m.selector)
      && u.frequency == (if req.frequency.value > 0 then req.frequency else m.frequency)
      && u.id == m.id && u.userId == m.userId && u.status == m.status && u.lastChecked == m.lastChecked
      && u.hasChanged == m.hasChanged && u.createdAt == m.createdAt
      && u.changeDetectionUuid == m.changeDetectionUuid && u.duration == m.duration
      && u.alertsEnabled == m.alertsEnabled && u.notificationMethod == m.notificationMethod
      && u.detectionMode == m.detectionMode
  {
  }

  // ---------------------------------------------------------------------------
  // Reading, updating and deleting by id.

  /** Where a request to /api/monitors/{id} goes, after the checks common to every method. */
  datatype Route =
    | ToPreflight
    | Rejected(status: int, message: string)
    | ToGet(id: ObjectId, user: string)
    | ToUpdate(id: ObjectId, user: string)
    | ToDelete(id: ObjectId, user: string)

  /**
   * The checks of `MonitorByID`, in order: preflight, the reserved suffixes,
   * the id's syntax, the session, then the method.
   */
  function RouteMonitorByID(verb: Method, path: string, session: Option<string>): (r: Route)
    ensures verb.Options? <==> r.ToPreflight?
    ensures !verb.Options? && TrimPrefix(path, MonitorsPrefix) in {"", "create"} ==>
      r == Rejected(BadRequest, "Invalid monitor ID")
    ensures (!verb.Options? && TrimPrefix(path, MonitorsPrefix) !in {"", "create"}
             && ObjectIdFromHex(TrimPrefix(path, MonitorsPrefix)).None?) ==>
      r == Rejected(BadRequest, "Invalid monitor ID format")
    ensures !verb.Options? && ObjectIdFromHex(TrimPrefix(path, MonitorsPrefix)).Some? && session.None? ==>
      r == Rejected(Unauthorized, NoSession)
    ensures r.ToGet? <==> verb.Get? && ObjectIdFromHex(TrimPrefix(path, MonitorsPrefix)).Some? && session.Some?
    ensures r.ToUpdate? <==> verb.Put? && ObjectIdFromHex(TrimPrefix(path, MonitorsPrefix)).Some? && session.Some?
    ensures r.ToDelete? <==> verb.Delete? && ObjectIdFromHex(TrimPrefix(path, MonitorsPrefix)).Some? && session.Some?
    ensures r.ToGet? || r.ToUpdate? || r.ToDelete? ==>
      Some(r.id) == ObjectIdFromHex(TrimPrefix(path, MonitorsPrefix)) && r.user == session.value
    ensures r.Rejected? && r.status == MethodNotAllowed ==> session.Some? && !(verb.Get? || verb.Put? || verb.Delete?)
    ensures (!verb.Options? && ObjectIdFromHex(TrimPrefix(path, MonitorsPrefix)).Some? && session.Some?
             && !(verb.Get? || verb.Put? || verb.Delete?)) ==> r == Rejected(MethodNotAllowed, NotAllowed)
  {
    if verb.Options? then ToPreflight
    else
      var suffix := TrimPrefix(path, MonitorsPrefix);
      if suffix == "" || suffix == "create" then
        ReservedSuffixesAreNotIds();
        Rejected(BadRequest, "Invalid monitor ID")
      else
        match ObjectIdFromHex(suffix)
        case None => Rejected(BadRequest, "Invalid monitor ID format")
        case Some(id) =>
          match session
          case None => Rejected(Unauthorized, NoSession)
          case Some(user) =>
            match verb
            case Get => ToGet(id, user)
            case Put => ToUpdate(id, user)
            case Delete => ToDelete(id, user)
            case _ => Rejected(MethodNotAllowed, NotAllowed)
  }

  /** A GET of one monitor: found only when both the id and the owner match. */
  function GetReply(ms: seq<Monitor>, id: ObjectId, user: string): (r: Reply<Monitor>)
    ensures r.Success? <==> exists k | 0 <= k < |ms| :: ms[k].id == id && ms[k].userId == user
    ensures r.Success? ==> r.status == 200 && r.value in ms && r.value.id == id && r.value.userId == user
    ensures !r.Success? ==> r == Failure(NotFound, MonitorNotFound)
  {
    var k := FirstIndex(ms, OwnedWithId(id, user));
    if k < 0 then Failure(NotFound, MonitorNotFound) else Success(200, ms[k])
  }

  /**
   * A PUT: a body that does not decode is rejected first; a monitor that
   * the user does not own, or that does not exist, is not found; otherwise
   * the `$set` is applied to it and the stored result is returned.
   */
  method UpdateMonitor(db: Collections, id: ObjectId, user: string, body: Option<CreateMonitorRequest>, now: int)
    returns (r: Reply<Monitor>)
    requires MonitorIdsDistinct(db.monitors)
    modifies db`monitors
    ensures MonitorIdsDistinct(db.monitors)
    ensures var k := FirstIndex(old(db.monitors), OwnedWithId(id, user));
      && (body.None? ==> r == Failure(BadRequest, InvalidBody) && db.monitors == old(db.monitors))
      && (body.Some? && k < 0 ==> r == Failure(NotFound, MonitorNotFound) && db.monitors == old(db.monitors))
      && (body.Some? && k >= 0 ==>
            db.monitors == old(db.monitors)[k := ApplySet(old(db.monitors)[k], UpdateDocument(body.value, now))]
            && r == Success(200, db.monitors[k]))
  {
    if body.None? {
      return Failure(BadRequest, InvalidBody);
    }
    var fields := BuildUpdate(body.value, now);
    var k := FirstIndex(db.monitors, OwnedWithId(id, user));
    if k < 0 {
      return Failure(NotFound, MonitorNotFound);
    }
    db.monitors := db.monitors[k := ApplySet(db.monitors[k], fields)];
    // The stored document is read back by `_id` alone.
    FirstIdIsOnly(db.monitors, k);
    var j := FirstIndex(db.monitors, WithId(id));
    r := Success(200, db.monitors[j]);
  }

  /** A DELETE: removes the one monitor with that id and owner, or reports it not found. */
  method DeleteMonitor(db: Collections, id: ObjectId, user: string) returns (r: Reply<string>)
    requires MonitorIdsDistinct(db.monitors)
    modifies db`monitors
    ensures MonitorIdsDistinct(db.monitors)
    ensures var k := FirstIndex(old(db.monitors), OwnedWithId(id, user));
      && (k < 0 ==> r == Failure(NotFound, MonitorNotFound) && db.monitors == old(db.monitors))
      && (k >= 0 ==> r == Success(200, DeletedMessage) && db.monitors == old(db.monitors)[..k] + old(db.monitors)[k + 1..])
    ensures r.Success? ==> forall m | m in db.monitors :: m.id != id
  {
    var k := FirstIndex(db.monitors, OwnedWithId(id, user));
    if k < 0 {
      return Failure(NotFound, MonitorNotFound);
    }
    db.monitors := db.monitors[..k] + db.monitors[k + 1..];
    r := Success(200, DeletedMessage);
  }

  /** The body of a by-id reply: a monitor, or the delete's message. */
  datatype ByIdBody = MonitorBody(monitor: Monitor) | MessageBody(message: string)

  function AsMonitorBody(r: Reply<Monitor>): Reply<ByIdBody> {
    match r
    case Preflight => Preflight
    case Failure(status, message) => Failure(status, message)
    case Success(status, m) => Success(status, MonitorBody(m))
  }

  /** GET, PUT and DELETE /api/monitors/{id}. */
  method MonitorByID(db: Collections, verb: Method, path: string, session: Option<string>,
                     body: Option<CreateMonitorRequest>, now: int)
    returns (r: Reply<ByIdBody>)
    requires MonitorIdsDistinct(db.monitors)
    modifies db`monitors
    ensures MonitorIdsDistinct(db.monitors)
    ensures var route := RouteMonitorByID(verb, path, session);
      && (route.ToPreflight? ==> r.Preflight? && db.monitors == old(db.monitors))
      && (route.Rejected? ==> r == Failure(route.status, route.message) && db.monitors == old(db.monitors))
      && (route.ToGet? ==> r == AsMonitorBody(GetReply(old(db.monitors), route.id, route.user))
                           && db.monitors == old(db.monitors))
    ensures var route := RouteMonitorByID(verb, path, session);
      route.ToUpdate? ==>
        var k := FirstIndex(old(db.monitors), OwnedWithId(route.id, route.user));
        && (body.None? ==> r == Failure(BadRequest, InvalidBody) && db.monitors == old(db.monitors))
        && (body.Some? && k < 0 ==> r == Failure(NotFound, MonitorNotFound) && db.monitors == old(db.monitors))
        && (body.Some? && k >= 0 ==>
              db.monitors == old(db.monitors)[k := ApplySet(old(db.monitors)[k], UpdateDocument(body.value, now))]
              && r == Success(200, MonitorBody(db.monitors[k])))
    ensures var route := RouteMonitorByID(verb, path, session);
      route.ToDelete? ==>
        var k := FirstIndex(old(db.monitors), OwnedWithId(route.id, route.user));
        && (k < 0 ==> r == Failure(NotFound, MonitorNotFound) && db.monitors == old(db.monitors))
        && (k >= 0 ==> r == Success(200, MessageBody(DeletedMessage))
                       && db.monitors == old(db.monitors)[..k] + old(db.monitors)[k + 1..])
  {
    var route := RouteMonitorByID(verb, path, session);
    match route
    case ToPreflight =>
      r := Preflight;
    case Rejected(status, message) =>
      r := Failure(status, message);
    case ToGet(id, user) =>
      r := AsMonitorBody(GetReply(db.monitors, id, user));
    case ToUpdate(id, user) =>
      var u := UpdateMonitor(db, id, user, body, now);
      r := AsMonitorBody(u);
    case ToDelete(id, user) =>
      var d := DeleteMonitor(db, id, user);
      r := match d
        case Preflight => Preflight
        case Failure(status, message) => Failure(status, message)
        case Success(status, message) => Success(status, MessageBody(message));
  }
}

=== FILE: picker.dfy ===
/**
 * Rules shared by the two element pickers, the standalone element selector
 * and the pinning page: URL normalisation, the html/body filter, the pin
 * toggle, and the reading of the pin button's reply.
 */
module Picker {
  import opened Wrappers
  import opened Text

  /** A highlight box. Geometry is carried through the model, never computed. */
  datatype Rect = Rect(top: real, left: real, width: real, height: real)

  /** The pinned element: its selector, its box and its lower-case tag name. */
  datatype PinnedElement = PinnedElement(selector: string, rect: Rect, tagName: string)

  /** What happened when the picker tried to wire itself into the frame's document. */
  datatype FrameAccess =
    | NoFrame   // the frame element is not mounted: nothing happens
    | Blocked   // no content document, or attaching listeners threw
    | Attached  // listeners attached

  const CannotAccess: string := "Cannot access page content"

  /** What happened when the picker wrote HTML into the frame's document. */
  datatype WriteOutcome =
    | NoDocument   // no frame element, or it has no content document: nothing happens
    | Written      // the document was opened, written and closed
    | WriteFailed  // writing threw

  predicate HasScheme(u: string) {
    StartsWith(u, "http://") || StartsWith(u, "https://")
  }

  /**
   * The URL the Load button opens: the trimmed input, with `https://` in
   * front unless it already names the http or https scheme.
   */
  function NormalizeUrl(u: string): (r: string)
    ensures HasScheme(r)
    ensures HasScheme(Trim(u)) ==> r == Trim(u)
    ensures !HasScheme(Trim(u)) ==> r == "https://" + Trim(u)
  {
    var n := Trim(u);
    if HasScheme(n) then n else "https://" + n
  }

  /** Normalising a normalised URL changes nothing. */
  lemma NormalizeIdempotent(u: string)
    ensures NormalizeUrl(NormalizeUrl(u)) == NormalizeUrl(u)
  {
    var n := Trim(u);
    var r := NormalizeUrl(u);
    assert r[0] == 'h';
    if !HasScheme(n) && n != [] {
      assert r[|r| - 1] == n[|n| - 1];
    }
    TrimmedIsFixed(r);
  }

  /** The picker ignores the document's root and body (tag compared in lower case). */
  predicate IsSkippedTag(tagName: string) {
    var lower := ToLower(tagName);
    lower == "html" || lower == "body"
  }

  /**
   * The selector the click handler compares against: the pinned element's
   * selector, where an empty selector reads as no selector at all.
   */
  function PinnedSelector(p: Option<PinnedElement>): (r: Option<string>)
    ensures r.Some? <==> p.Some? && p.value.selector != ""
    ensures r.Some? ==> r.value == p.value.selector
  {
    if p.Some? && p.value.selector != "" then Some(p.value.selector) else None
  }

  /** A click pins `c`, unless `c`'s selector is the one already pinned, which unpins. */
  function Toggle(p: Option<PinnedElement>, c: PinnedElement): (r: Option<PinnedElement>)
    ensures r.None? <==> c.selector != "" && p.Some? && p.value.selector == c.selector
    ensures r.Some? ==> r.value == c
  {
    if PinnedSelector(p) == Some(c.selector) then None else Some(c)
  }

  /** Two clicks on the same unchanged element, starting from anything but that pin, leave nothing pinned. */
  lemma ToggleTwiceUnpins(p: Option<PinnedElement>, c: PinnedElement)
    requires c.selector != ""
    requires PinnedSelector(p) != Some(c.selector)
    ensures Toggle(p, c) == Some(c)
    ensures Toggle(Toggle(p, c), c) == None
  {
  }

  /** Starting from that very pin, two clicks pin the element again. */
  lemma ToggleTwiceRepins(p: Option<PinnedElement>, c: PinnedElement)
    requires PinnedSelector(p) == Some(c.selector)
    ensures Toggle(p, c) == None
    ensures Toggle(Toggle(p, c), c) == Some(c)
  {
  }

  // ---------------------------------------------------------------------------
  // The pin button's reply and the `"uuid":\s*"([^"]+)"` capture.

  /**
   * The reply to the pin request. `Unreachable` covers a rejected fetch, a body
   * that is not JSON and the JSON `null`, where reading a field throws. Any
   * other JSON value is a `Reply` carrying the fields the dialog reads
   * (`changedetection_status` as a number, `changedetection_body` and `error`
   * as strings), each `None` when absent or of another type; an array or a
   * number has none of them.
   */
  datatype PinReply =
    | Unreachable
    | Reply(ok: bool, status: Option<int>, body: Option<string>, error: Option<string>)

  datatype DialogKind = Success | Failure

  const UuidKey: string := "\"uuid\":"
  const CreatedFallback: string := "Created successfully"
  const ConnectFailure: string := "Failed to connect to backend\n\nMake sure the Go server is running on port 3002"

  /** The end of the run of white space that starts at `i`. */
  function SkipSpaces(s: string, i: nat): (j: nat)
    requires i <= |s|
    ensures i <= j <= |s|
    ensures forall k | i <= k < j :: IsSpace(s[k])
    ensures j == |s| || !IsSpace(s[j])
    decreases |s| - i
  {
    if i < |s| && IsSpace(s[i]) then SkipSpaces(s, i + 1) else i
  }

  /** The end of the run of characters other than `"` that starts at `i`. */
  function QuoteFreeEnd(s: string, i: nat): (j: nat)
    requires i <= |s|
    ensures i <= j <= |s|
    ensures forall k | i <= k < j :: s[k] != '"'
    ensures j == |s| || s[j] == '"'
    decreases |s| - i
  {
    if i < |s| && s[i] != '"' then QuoteFreeEnd(s, i + 1) else i
  }

  /**
   * The capture group when the pattern matches at position `i`. Neither `\s*`
   * nor `[^"]+` can give back characters to let the next `"` match, so the
   * greedy runs are the only candidates.
   */
  function MatchAt(s: string, i: nat): (r: Option<string>)
    requires i <= |s|
    ensures r.Some? ==> r.value != [] && '"' !in r.value
  {
    if StartsWith(s[i..], UuidKey) then
      var j := SkipSpaces(s, i + |UuidKey|);
      if j < |s| && s[j] == '"' then
        var k := QuoteFreeEnd(s, j + 1);
        if j + 1 < k < |s| then Some(s[j + 1..k]) else None
      else None
    else None
  }

  /** The leftmost match at or after `i`. */
  function FirstMatch(s: string, i: nat): (r: Option<string>)
    requires i <= |s|
    ensures r.None? <==> forall k | i <= k <= |s| :: MatchAt(s, k).None?
    ensures r.Some? ==> exists k | i <= k <= |s| :: MatchAt(s, k) == r && forall j | i <= j < k :: MatchAt(s, j).None?
    ensures r.Some? ==> r.value != [] && '"' !in r.value
    decreases |s| - i
  {
    var m := MatchAt(s, i);
    if m.Some? then m
    else if i == |s| then None
    else FirstMatch(s, i + 1)
  }

  /** `body.match(/"uuid":\s*"([^"]+)"/)`, as its first capture group: the capture of the leftmost match. */
  function UuidCapture(s: string): (r: Option<string>)
    ensures r.None? <==> forall k | 0 <= k <= |s| :: MatchAt(s, k).None?
    ensures r.Some? ==> exists k | 0 <= k <= |s| :: MatchAt(s, k) == r && forall j | 0 <= j < k :: MatchAt(s, j).None?
    ensures r.Some? ==> r.value != [] && '"' !in r.value
  {
    FirstMatch(s, 0)
  }

  /**
   * A body holding the uuid member, with no `"` before it, gives back exactly
   * that uuid, whatever follows it.
   */
  lemma UuidRoundTrip(p: string, ws: string, u: string, rest: string)
    requires '"' !in p
    requires forall k | 0 <= k < |ws| :: IsSpace(ws[k])
    requires u != [] && '"' !in u
    ensures UuidCapture(p + UuidKey + ws + "\"" + u + "\"" + rest) == Some(u)
  {
    var member := UuidKey + ws + "\"" + u + "\"" + rest;
    NoMatchBefore(p, member);
    MemberMatches(p, ws, u, rest);
    assert p + UuidKey + ws + "\"" + u + "\"" + rest == p + member;
  }

  /** No match starts inside a prefix free of `"`, since every match starts with one. */
  lemma NoMatchBefore(p: string, t: string)
    requires '"' !in p
    ensures forall k | 0 <= k < |p| :: MatchAt(p + t, k).None?
  {
    var s := p + t;
    forall k | 0 <= k < |p|
      ensures MatchAt(s, k).None?
    {
      assert s[k] == p[k];
      assert s[k..][0] != UuidKey[0];
    }
  }

  /** The pattern matches where the uuid member starts, capturing the uuid. */
  lemma MemberMatches(p: string, ws: string, u: string, rest: string)
    requires forall k | 0 <= k < |ws| :: IsSpace(ws[k])
    requires u != [] && '"' !in u
    ensures var s := p + (UuidKey + ws + "\"" + u + "\"" + rest); |p| <= |s| && MatchAt(s, |p|) == Some(u)
  {
    var s := p + (UuidKey + ws + "\"" + u + "\"" + rest);
    var at := |p|;
    var open := at + |UuidKey| + |ws|;
    var close := open + 1 + |u|;
    assert s[at..][..|UuidKey|] == UuidKey;
    assert s[open] == '"';
    assert forall k | at + |UuidKey| <= k < open :: s[k] == ws[k - at - |UuidKey|];
    var j := SkipSpaces(s, at + |UuidKey|);
    assert j == open;
    assert s[close] == '"';
    assert forall k | open + 1 <= k < close :: s[k] == u[k - open - 1];
    var k := QuoteFreeEnd(s, open + 1);
    assert k == close;
    assert s[open + 1..close] == u;
  }

  /** The text of a JavaScript number for `${…}`; integers only. */
  function StatusText(status: Option<int>): string {
    if status.Some? && status.value != 0 then IntToString(status.value) else "N/A"
  }

  /** `a || b` on optional strings: the first one present and non-empty. */
  function OrElse(a: Option<string>, b: string): string {
    if a.Some? && a.value != "" then a.value else b
  }

  /**
   * The dialog the pin button opens for a reply: success only when the reply
   * is ok, the upstream status is 201 and the upstream body is a string.
   */
  function PinDialog(reply: PinReply): (d: (DialogKind, string))
    ensures d.0 == Success <==> reply.Reply? && reply.ok && reply.status == Some(201) && reply.body.Some?
    ensures d.0 == Success ==>
      d.1 == "Watch created successfully!\n\nUUID: " + UuidCapture(reply.body.value).GetOr(CreatedFallback)
    ensures reply.Unreachable? ==> d == (Failure, ConnectFailure)
    ensures reply.Reply? && reply.ok && reply.status == Some(201) && reply.body.None? ==> d == (Failure, ConnectFailure)
    ensures reply.Reply? && !(reply.ok && reply.status == Some(201)) ==>
      d == (Failure, "Failed to create watch\n\nStatus: " + StatusText(reply.status)
                     + "\nError: " + OrElse(reply.error, OrElse(reply.body, "Unknown error")))
  {
    match reply
    case Unreachable => (Failure, ConnectFailure)
    case Reply(ok, status, body, error) =>
      if ok && status == Some(201) then
        // Reading the body of a success reply throws when it is not a string.
        if body.Some? then
          (Success, "Watch created successfully!\n\nUUID: " + UuidCapture(body.value).GetOr(CreatedFallback))
        else (Failure, ConnectFailure)
      else
        (Failure, "Failed to create watch\n\nStatus: " + StatusText(status)
                  + "\nError: " + OrElse(error, OrElse(body, "Unknown error")))
  }
}

=== FILE: pinning.dfy ===
/**
 * The pinning page: the same picker as the standalone element selector, with
 * a built-in demo page in place of the Pin button. Loading the demo turns on
 * demo mode, which keeps the frame's own load event from touching the state.
 *
 * Events arrive on a snapshot `t` of the frame's document; the target of an
 * event is an element index (or `None` for a null target), and the box the
 * browser reports for it is a parameter (`None` when measuring threw).
 */
module PinningPage {
  import opened Wrappers
  import opened Text
  import opened Dom
  import opened SelectorGenerator
  import opened Picker

  class Pinning {
    var url: string                   // the URL input
    var loadedUrl: string
    var isLoading: bool
    var loadingStatus: string
    var hoverRect: Option<Rect>
    var pinned: Option<PinnedElement>
    var error: Option<string>
    var isDemo: bool
    var proxyContent: Option<string>
    var hovered: Option<nat>          // the element under the pointer, as last seen

    constructor ()
      ensures url == "" && loadedUrl == "" && !isLoading && loadingStatus == ""
      ensures hoverRect.None? && pinned.None? && error.None? && !isDemo && proxyContent.None? && hovered.None?
    {
      url := "";
      loadedUrl := "";
      isLoading := false;
      loadingStatus := "";
      hoverRect := None;
      pinned := None;
      error := None;
      isDemo := false;
      proxyContent := None;
      hovered := None;
    }

    /** Typing in the URL bar. */
    method SetUrl(u: string)
      modifies this`url
      ensures url == u
    {
      url := u;
    }

    /**
     * The Load button: nothing for a blank input; otherwise the page resets
     * the pin, the hover, the error and the fetched content, and loads the
     * normalised URL.
     */
    method LoadUrl()
      modifies this`isLoading, this`loadingStatus, this`pinned, this`hoverRect, this`error
      modifies this`isDemo, this`proxyContent, this`loadedUrl
      ensures Trim(old(url)) == "" ==>
        loadedUrl == old(loadedUrl) && isLoading == old(isLoading) && loadingStatus == old(loadingStatus)
        && hoverRect == old(hoverRect) && pinned == old(pinned) && error == old(error)
        && isDemo == old(isDemo) && proxyContent == old(proxyContent)
      ensures Trim(old(url)) != "" ==>
        loadedUrl == NormalizeUrl(old(url)) && isLoading && loadingStatus == "Connecting..."
        && hoverRect.None? && pinned.None? && error.None? && !isDemo && proxyContent.None?
    {
      var trimmed := Trim(url);
      if trimmed == "" {
        return;
      }
      var normalized := NormalizeUrl(url);
      isLoading := true;
      loadingStatus := "Connecting...";
      pinned := None;
      hoverRect := None;
      error := None;
      isDemo := false;
      proxyContent := None;
      loadedUrl := normalized;
    }

    /** The end of the proxy fetch started by a load: the page's HTML, or `None` when every proxy failed. */
    method FetchDone(html: Option<string>)
      modifies this`proxyContent, this`loadingStatus, this`error, this`isLoading
      ensures html.Some? ==>
        proxyContent == html && loadingStatus == "Rendering..." && error == old(error) && isLoading == old(isLoading)
      ensures html.None? ==>
        proxyContent == old(proxyContent) && loadingStatus == old(loadingStatus)
        && error == Some("Failed to load page. The site may block proxies.") && !isLoading
    {
      if html.Some? {
        proxyContent := html;
        loadingStatus := "Rendering...";
      } else {
        error := Some("Failed to load page. The site may block proxies.");
        isLoading := false;
      }
    }

    /**
     * Writing the fetched HTML into the frame, once it is ready: only when
     * there is fetched content. Listeners are wired separately, afterwards.
     */
    method WriteContent(outcome: WriteOutcome)
      modifies this`isLoading, this`loadingStatus, this`error
      ensures old(proxyContent).None? || old(proxyContent).value == "" || outcome.NoDocument? ==>
        isLoading == old(isLoading) && loadingStatus == old(loadingStatus) && error == old(error)
      ensures old(proxyContent).Some? && old(proxyContent).value != "" && outcome.Written? ==>
        !isLoading && loadingStatus == "" && error == old(error)
      ensures old(proxyContent).Some? && old(proxyContent).value != "" && outcome.WriteFailed? ==>
        !isLoading && loadingStatus == old(loadingStatus) && error == Some("Failed to render page content")
    {
      if proxyContent.None? || proxyContent.value == "" {
        return;
      }
      match outcome
      case NoDocument =>
      case Written =>
        isLoading := false;
        loadingStatus := "";
      case WriteFailed =>
        error := Some("Failed to render page content");
        isLoading := false;
    }

    /** Wiring the handlers into the frame's document. */
    method SetupListeners(access: FrameAccess)
      modifies this`error
      ensures access.NoFrame? ==> error == old(error)
      ensures access.Blocked? ==> error == Some(CannotAccess)
      ensures access.Attached? ==> error.None?
    {
      match access
      case NoFrame =>
      case Blocked => error := Some(CannotAccess);
      case Attached => error := None;
    }

    /**
     * The Demo button: demo mode on, the blank page loaded, and the pin, the
     * hover, the error and the fetched content cleared.
     */
    method LoadDemo()
      modifies this`isLoading, this`loadingStatus, this`pinned, this`hoverRect, this`error
      modifies this`isDemo, this`proxyContent, this`loadedUrl
      ensures isLoading && loadingStatus == "Loading demo..." && isDemo && loadedUrl == "about:blank"
      ensures pinned.None? && hoverRect.None? && error.None? && proxyContent.None?
    {
      isLoading := true;
      loadingStatus := "Loading demo...";
      pinned := None;
      hoverRect := None;
      error := None;
      isDemo := true;
      proxyContent := None;
      loadedUrl := "about:blank";
    }

    /**
     * Writing the demo page into the frame, a moment after the Demo button:
     * on success loading ends and the listeners are wired; when writing
     * throws, the error says so.
     */
    method WriteDemo(outcome: WriteOutcome, access: FrameAccess)
      modifies this`isLoading, this`loadingStatus, this`error
      ensures outcome.NoDocument? ==>
        isLoading == old(isLoading) && loadingStatus == old(loadingStatus) && error == old(error)
      ensures outcome.Written? ==>
        !isLoading && loadingStatus == ""
        && error == (match access case NoFrame => old(error) case Blocked => Some(CannotAccess) case Attached => None)
      ensures outcome.WriteFailed? ==>
        !isLoading && loadingStatus == old(loadingStatus) && error == Some("Failed to load demo")
    {
      match outcome
      case NoDocument =>
      case Written =>
        isLoading := false;
        loadingStatus := "";
        SetupListeners(access);
      case WriteFailed =>
        error := Some("Failed to load demo");
        isLoading := false;
    }

    /** The frame's own load event: acts only without fetched content and outside demo mode. */
    method IframeLoad(access: FrameAccess)
      modifies this`isLoading, this`error
      ensures (old(proxyContent).Some? && old(proxyContent).value != "") || isDemo ==>
        isLoading == old(isLoading) && error == old(error)
      ensures (old(proxyContent).None? || old(proxyContent).value == "") && !isDemo ==>
        !isLoading
        && error == (match access case NoFrame => old(error) case Blocked => Some(CannotAccess) case Attached => None)
    {
      if (proxyContent.None? || proxyContent.value == "") && !isDemo {
        isLoading := false;
        SetupListeners(access);
      }
    }

    /**
     * The pointer moving onto `target`: nothing when it is null or the element
     * already hovered; html and body clear the highlight; anything else
     * becomes the hovered element with the box `rect`.
     */
    method MouseMove(t: Tree, target: Option<nat>, rect: Option<Rect>)
      requires target.Some? ==> target.value < |t.nodes|
      modifies this`hoverRect, this`hovered
      ensures target.None? || target == old(hovered) ==> hoverRect == old(hoverRect) && hovered == old(hovered)
      ensures target.Some? && target != old(hovered) && IsSkippedTag(t.nodes[target.value].tagName) ==>
        hoverRect.None? && hovered.None?
      ensures target.Some? && target != old(hovered) && !IsSkippedTag(t.nodes[target.value].tagName) ==>
        hoverRect == rect && hovered == target
    {
      if target.None? || target == hovered {
        return;
      }
      if IsSkippedTag(t.nodes[target.value].tagName) {
        hoverRect := None;
        hovered := None;
        return;
      }
      hovered := target;
      hoverRect := rect;
    }

    /** The pointer leaving the document. */
    method MouseLeave()
      modifies this`hoverRect, this`hovered
      ensures hoverRect.None? && hovered.None?
    {
      hoverRect := None;
      hovered := None;
    }

    /**
     * A click on `target`: ignored for a null target, for html and body, and
     * when the box cannot be measured; otherwise toggles the pin of the
     * element's generated selector.
     */
    method Click(t: Tree, target: Option<nat>, rect: Option<Rect>, esc: string -> string)
      requires Valid(t) && (target.Some? ==> target.value < |t.nodes|)
      modifies this`pinned
      ensures target.None? || IsSkippedTag(t.nodes[target.value].tagName) || rect.None? ==> pinned == old(pinned)
      ensures target.Some? && !IsSkippedTag(t.nodes[target.value].tagName) && rect.Some? ==>
        pinned == Toggle(old(pinned), PinnedElement(Render(esc, Walk(t, target.value)), rect.value,
                                                    ToLower(t.nodes[target.value].tagName)))
    {
      if target.None? {
        return;
      }
      var tagName := ToLower(t.nodes[target.value].tagName);
      if tagName == "html" || tagName == "body" {
        return;
      }
      if rect.None? {
        return;
      }
      var selector := GenerateSelector(t, target.value, esc);
      if PinnedSelector(pinned) == Some(selector) {
        pinned := None;
      } else {
        pinned := Some(PinnedElement(selector, rect.value, tagName));
      }
    }
  }
}

=== FILE: profile.dfy ===
/**
 * The profile button's two derivations from a user's name: the initials in
 * the avatar and the two hues of its background gradient.
 */
module Profile {
  import opened Text

  /** `name.slice(0, 2)`. */
  function FirstTwo(name: string): (r: string)
    ensures |r| <= 2 && |r| <= |name| && r == name[..|r|]
    ensures |r| == 2 || r == name
  {
    if |name| <= 2 then name else name[..2]
  }

  /** When the trimmed name has several words, its first and last words are not empty. */
  lemma OuterWordsNonEmpty(name: string)
    requires |Split(Trim(name), ' ')| >= 2
    ensures var parts := Split(Trim(name), ' '); parts[0] != [] && parts[|parts| - 1] != []
  {
    var trimmed := Trim(name);
    assert trimmed != [];
    SplitFirstPart(trimmed, ' ');
    SplitLastPart(trimmed, ' ');
  }

  /** The upper-cased first letters of the first and last words. */
  function OuterInitials(parts: seq<string>): (r: string)
    requires |parts| >= 2 && parts[0] != [] && parts[|parts| - 1] != []
    ensures |r| == 2
  {
    ToUpper([parts[0][0], parts[|parts| - 1][0]])
  }

  /**
   * `getInitials`: "U" for an empty name; the first letters of the first and
   * last space-separated words of the trimmed name when there are at least
   * two; otherwise the name's first two characters. Always upper-cased.
   */
  function Initials(name: string): (r: string)
    ensures |r| <= 2
    ensures name == "" ==> r == "U"
    ensures name != "" && |Split(Trim(name), ' ')| >= 2 ==>
      var parts := Split(Trim(name), ' ');
      && parts[0] != [] && parts[|parts| - 1] != []
      && r == OuterInitials(parts)
      && |r| == 2
    ensures name != "" && |Split(Trim(name), ' ')| < 2 ==> r == ToUpper(FirstTwo(name))
  {
    if name == "" then "U"
    else
      var parts := Split(Trim(name), ' ');
      if |parts| >= 2 then
        OuterWordsNonEmpty(name);
        OuterInitials(parts)
      else ToUpper(FirstTwo(name))
  }

  /** A name of two or more words gets the initials of its first and last words. */
  lemma InitialsOfFullName(first: string, middle: string, last: string)
    requires first != [] && last != []
    requires ' ' !in first && ' ' !in last
    requires !IsSpace(first[0]) && !IsSpace(last[|last| - 1])
    ensures Initials(first + " " + middle + " " + last) == ToUpper([first[0], last[0]])
  {
    var name := first + " " + middle + " " + last;
    var head, tail := first + " " + middle, middle + " " + last;
    assert name == first + " " + tail;
    assert name == head + " " + last;
    SplitPrefix(first, tail);
    SplitSuffix(head, last);
    assert name[0] == first[0] && name[|name| - 1] == last[|last| - 1];
    TrimmedIsFixed(name);
  }

  /** Splitting `w + " " + rest`, where `w` has no space, gives `w` first. */
  lemma {:induction false} SplitPrefix(w: string, rest: string)
    requires ' ' !in w
    ensures var parts := Split(w + " " + rest, ' '); |parts| >= 2 && parts[0] == w
    decreases |w|
  {
    var s := w + " " + rest;
    if w != [] {
      assert s[1..] == w[1..] + " " + rest;
      SplitPrefix(w[1..], rest);
    }
  }

  /** Splitting `init + " " + w`, where `w` has no space, gives `w` last. */
  lemma {:induction false} SplitSuffix(init: string, w: string)
    requires ' ' !in w
    ensures var parts := Split(init + " " + w, ' '); |parts| >= 2 && parts[|parts| - 1] == w
    decreases |init|
  {
    var s := init + " " + w;
    if init == [] {
      assert s[1..] == w;
      SplitOfSpaceFree(w);
    } else {
      assert s[1..] == init[1..] + " " + w;
      SplitSuffix(init[1..], w);
    }
  }

  /** A string without the separator is a single part. */
  lemma {:induction false} SplitOfSpaceFree(w: string)
    requires ' ' !in w
    ensures Split(w, ' ') == [w]
    decreases |w|
  {
    if w != [] {
      assert ' ' !in w[1..];
      SplitOfSpaceFree(w[1..]);
      assert [w[0]] + w[1..] == w;
    }
  }

  // ---------------------------------------------------------------------------
  // The gradient.

  /** The sum of the name's character codes. */
  function CharSum(s: string): nat {
    if s == [] then 0 else s[0] as nat + CharSum(s[1..])
  }

  /** `getGradientFromName`'s two hues: the code sum modulo 360, and seven times it modulo 360. */
  function Hues(name: string): (h: (nat, nat))
    ensures h.0 < 360 && h.1 < 360
    ensures h.0 == CharSum(name) % 360 && h.1 == (CharSum(name) * 7) % 360
  {
    (CharSum(name) % 360, (CharSum(name) * 7) % 360)
  }

  /** The second hue is seven times the first, around the colour wheel. */
  lemma SecondHueFromFirst(name: string)
    ensures Hues(name).1 == (Hues(name).0 * 7) % 360
  {
    var sum := CharSum(name);
    var q, r := sum / 360, sum % 360;
    var t := r * 7;
    assert sum * 7 == 360 * (7 * q + t / 360) + t % 360;
    RemainderUnique(sum * 7, 7 * q + t / 360, t % 360);
  }

  /** The remainder modulo 360 is the only one in range. */
  lemma RemainderUnique(n: int, k: int, u: int)
    requires n == 360 * k + u && 0 <= u < 360
    ensures n % 360 == u
  {
    assert n == 360 * (n / 360) + n % 360;
  }

  function Gradient(name: string): string {
    var h := Hues(name);
    "linear-gradient(135deg, hsl(" + NatToString(h.0) + ", 70%, 50%), hsl(" + NatToString(h.1) + ", 70%, 40%))"
  }

  lemma {:induction false} CharSumConcat(a: string, b: string)
    ensures CharSum(a + b) == CharSum(a) + CharSum(b)
    decreases |a|
  {
    if a == [] {
      assert a + b == b;
    } else {
      assert (a + b)[0] == a[0] && (a + b)[1..] == a[1..] + b;
      CharSumConcat(a[1..], b);
    }
  }

  /** The hues depend on the characters of the name, not on their order. */
  lemma {:induction false} CharSumPermutation(a: string, b: string)
    requires multiset(a) == multiset(b)
    ensures CharSum(a) == CharSum(b)
    decreases |a|
  {
    if a != [] {
      assert a[0] in multiset(b);
      var j :| 0 <= j < |b| && b[j] == a[0];
      var rest := b[..j] + b[j + 1..];
      assert b == b[..j] + [b[j]] + b[j + 1..];
      assert a == [a[0]] + a[1..];
      assert multiset(b) == multiset(b[..j]) + multiset{b[j]} + multiset(b[j + 1..]);
      assert multiset(rest) == multiset(b[..j]) + multiset(b[j + 1..]);
      assert multiset(rest) == multiset(b) - multiset{a[0]};
      assert multiset(a) == multiset{a[0]} + multiset(a[1..]);
      assert multiset(a[1..]) == multiset(a) - multiset{a[0]};
      CharSumPermutation(a[1..], rest);
      CharSumConcat(b[..j] + [b[j]], b[j + 1..]);
      CharSumConcat(b[..j], [b[j]]);
      CharSumConcat(b[..j], b[j + 1..]);
    }
  }

  /** Permuting a name's characters keeps its gradient. */
  lemma GradientPermutation(a: string, b: string)
    requires multiset(a) == multiset(b)
    ensures Hues(a) == Hues(b) && Gradient(a) == Gradient(b)
  {
    CharSumPermutation(a, b);
  }
}

=== FILE: selector_generator.dfy ===
/**
 * The element locator: builds a CSS selector for a clicked element. It returns
 * `#id` when the element's id is unique; otherwise it walks up the ancestors,
 * prepending one segment per level (the lower-case tag name, with
 * `:nth-of-type(k)` when the parent has several children of that tag) until it
 * reaches an element with a unique id, an element whose parent is `<html>`, or
 * an element without a parent. The segments are joined with the child
 * combinator `" > "` (section 8.2 of Selectors Level 3).
 *
 * `CSS.escape` is the parameter `esc`, an arbitrary string function.
 */
module SelectorGenerator {
  import opened Wrappers
  import opened Text
  import opened Dom

  /** One step of a structural selector. */
  datatype Segment =
    | IdSegment(id: string)                        // `#<escaped id>`
    | TagSegment(tag: string, nth: Option<int>)    // `tag` or `tag:nth-of-type(k)`

  /** A flat `tag.class1.class2` selector. */
  datatype ClassSelector = ClassSelector(tag: string, classes: seq<string>)

  /** Length above which a structural selector is worth replacing by a class selector. */
  const ReadableThreshold: nat := 100

  function RenderSegment(esc: string -> string, s: Segment): string {
    match s
    case IdSegment(x) => "#" + esc(x)
    case TagSegment(tag, None) => tag
    case TagSegment(tag, Some(k)) => tag + ":nth-of-type(" + IntToString(k) + ")"
  }

  function RenderedSegments(esc: string -> string, path: seq<Segment>): seq<string> {
    seq(|path|, k requires 0 <= k < |path| => RenderSegment(esc, path[k]))
  }

  /** `path.join(' > ')` over the rendered segments. */
  function Render(esc: string -> string, path: seq<Segment>): string {
    Join(RenderedSegments(esc, path), " > ")
  }

  function ClassSuffix(esc: string -> string, classes: seq<string>): string
    decreases |classes|
  {
    if classes == [] then "" else "." + esc(classes[0]) + ClassSuffix(esc, classes[1..])
  }

  function RenderClassSelector(esc: string -> string, cs: ClassSelector): string {
    cs.tag + ClassSuffix(esc, cs.classes)
  }

  // ---------------------------------------------------------------------------
  // What a selector selects (Selectors Level 3), assuming `esc` is a faithful
  // escape, so that `#` + esc(x) selects the elements whose id is x.
  // ---------------------------------------------------------------------------

  /**
   * The type selector `tag` selects element `e`. Following the HTML standard's
   * rules on the case-sensitivity of selectors, it is compared ignoring ASCII
   * case with an element in the HTML namespace and exactly with any other
   * (SVG, MathML) element.
   */
  predicate TypeSelects(e: Element, tag: string) {
    if e.inHtmlNamespace then ToLower(e.tagName) == ToLower(tag) else e.tagName == tag
  }

  /** The lower-cased name of `e` selects it: `e` is an HTML element or its name has no upper-case letter. */
  predicate NameSelectable(e: Element) {
    e.inHtmlNamespace || ToLower(e.tagName) == e.tagName
  }

  predicate SegmentMatches(t: Tree, s: Segment, n: nat)
    requires Valid(t) && n < |t.nodes|
  {
    match s
    case IdSegment(x) => NameMatches(t, t.nodes[n].id, x)
    case TagSegment(tag, None) => TypeSelects(t.nodes[n], tag)
    case TagSegment(tag, Some(k)) => TypeSelects(t.nodes[n], tag) && IsNthOfType(t, n, k)
  }

  /**
   * Element `n` matches `s1 > s2 > ... > sm`: it matches `sm`, and, when m > 1,
   * it has a parent that matches `s1 > ... > s(m-1)`.
   */
  predicate PathMatches(t: Tree, path: seq<Segment>, n: nat)
    requires Valid(t) && n < |t.nodes|
    decreases |path|
  {
    assert ValidNode(t, n);
    && |path| > 0
    && SegmentMatches(t, path[|path| - 1], n)
    && (|path| > 1 ==> t.nodes[n].parent.Some? && PathMatches(t, path[..|path| - 1], t.nodes[n].parent.value))
  }

  /**
   * The maximal runs of characters that are not separators `sep`. With
   * `IsSpace` they are what `trim().split(/\s+/).filter(Boolean)` gives in
   * `getClassBasedSelector`; with `IsAsciiWhitespace`, the class list a browser
   * reads from a `class` attribute.
   */
  function Tokens(s: string, sep: char -> bool): (r: seq<string>)
    ensures forall k | 0 <= k < |r| :: r[k] != [] && forall c | c in r[k] :: !sep(c)
    decreases |s|
  {
    if s == [] then []
    else if sep(s[0]) then Tokens(s[1..], sep)
    else var w := Word(s, sep); [w] + Tokens(s[|w|..], sep)
  }

  /** The longest prefix of `s` without a separator. */
  function Word(s: string, sep: char -> bool): (w: string)
    ensures |w| <= |s| && w == s[..|w|]
    ensures forall c | c in w :: !sep(c)
    ensures |w| < |s| ==> sep(s[|w|])
    ensures s != [] && !sep(s[0]) ==> w != []
    decreases |s|
  {
    if s == [] || sep(s[0]) then [] else [s[0]] + Word(s[1..], sep)
  }

  /** The class selector `.c` selects an element whose class list is `list`. */
  predicate HasClass(t: Tree, list: seq<string>, c: string) {
    exists k | 0 <= k < |list| :: NameMatches(t, list[k], c)
  }

  /** Element `n` matches the flat selector `tag.c1.c2`: the type selector and every class against the browser's class list. */
  predicate ClassMatches(t: Tree, cs: ClassSelector, n: nat)
    requires n < |t.nodes|
  {
    TypeSelects(t.nodes[n], cs.tag) && forall c | c in cs.classes :: HasClass(t, Tokens(t.nodes[n].classAttr, IsAsciiWhitespace), c)
  }

  ghost function ClassMatchSet(t: Tree, cs: ClassSelector): set<nat> {
    set j | 0 <= j < |t.nodes| && ClassMatches(t, cs, j)
  }

  /** `document.querySelectorAll(tag.c1.c2).length`. */
  function ClassQueryCount(t: Tree, cs: ClassSelector): nat {
    |set j | 0 <= j < |t.nodes| && ClassMatches(t, cs, j)|
  }

  // ---------------------------------------------------------------------------
  // The generator
  // ---------------------------------------------------------------------------

  /** `isIdUnique`: the element has a non-empty id that exactly one element of its document carries. */
  predicate IsIdUnique(t: Tree, i: nat)
    requires i < |t.nodes|
  {
    t.nodes[i].id != "" && t.hasOwnerDocument && IdCount(t, t.nodes[i].id) == 1
  }

  /** The segment emitted for a level that is not a unique-id anchor. */
  function LevelSegment(t: Tree, c: nat): Segment
    requires Valid(t) && c < |t.nodes|
  {
    var e := t.nodes[c];
    var siblings := SameTagSiblings(t, c);
    if e.parent.Some? && |siblings| > 1 then TagSegment(ToLower(e.tagName), Some(IndexOf(siblings, c) + 1))
    else TagSegment(ToLower(e.tagName), None)
  }

  /** The segments of the upward walk from `c`, outermost first. */
  function Walk(t: Tree, c: nat): seq<Segment>
    requires Valid(t) && c < |t.nodes|
    decreases c
  {
    assert ValidNode(t, c);
    if IsIdUnique(t, c) then [IdSegment(t.nodes[c].id)]
    else
      match t.nodes[c].parent
      case None => [LevelSegment(t, c)]
      case Some(p) => if IsHtml(t, p) then [LevelSegment(t, c)] else Walk(t, p) + [LevelSegment(t, c)]
  }

  /** The elements the walk from `c` visits, outermost first. */
  ghost function WalkNodes(t: Tree, c: nat): seq<nat>
    requires Valid(t) && c < |t.nodes|
    decreases c
  {
    assert ValidNode(t, c);
    if IsIdUnique(t, c) then [c]
    else
      match t.nodes[c].parent
      case None => [c]
      case Some(p) => if IsHtml(t, p) then [c] else WalkNodes(t, p) + [c]
  }

  /** `generateSelector`: the rendering of the walk from `element`. */
  method GenerateSelector(t: Tree, element: nat, esc: string -> string) returns (selector: string)
    requires Valid(t) && element < |t.nodes|
    ensures selector == Render(esc, Walk(t, element))
  {
    if IsIdUnique(t, element) {
      RenderSingle(esc, IdSegment(t.nodes[element].id));
      return "#" + esc(t.nodes[element].id);
    }
    var path: seq<Segment> := [];
    var current: Option<nat> := Some(element);
    while current.Some?
      invariant current.Some? ==> current.value < |t.nodes| && Walk(t, element) == Walk(t, current.value) + path
      invariant current.None? ==> Walk(t, element) == path
      decreases if current.Some? then current.value + 1 else 0
    {
      var c := current.value;
      ghost var before := path;
      if IsIdUnique(t, c) {
        path := [IdSegment(t.nodes[c].id)] + path;
        break;
      }
      var parent := t.nodes[c].parent;
      var segment := LevelSelector(t, c);
      WalkStep(t, c);
      path := [segment] + path;
      current := parent;
      if current.Some? {
        ConcatAssoc(Walk(t, current.value), [segment], before);
      }
      if current.Some? && IsHtml(t, current.value) {
        break;
      }
    }
    selector := Render(esc, path);
  }

  lemma ConcatAssoc(a: seq<Segment>, b: seq<Segment>, c: seq<Segment>)
    ensures a + b + c == a + (b + c)
  {
  }

  /** The loop body of `generateSelector` for a level that is not a unique-id anchor. */
  method LevelSelector(t: Tree, c: nat) returns (segment: Segment)
    requires Valid(t) && c < |t.nodes|
    ensures segment == LevelSegment(t, c)
  {
    var e := t.nodes[c];
    segment := TagSegment(ToLower(e.tagName), None);
    var parent := e.parent;
    if parent.Some? {
      var siblings := SameTagSiblings(t, c);
      if |siblings| > 1 {
        segment := TagSegment(ToLower(e.tagName), Some(IndexOf(siblings, c) + 1));
      }
    }
  }

  /** One level of the walk: a non-anchor element contributes its level segment below its parent's walk. */
  lemma WalkStep(t: Tree, c: nat)
    requires Valid(t) && c < |t.nodes| && !IsIdUnique(t, c)
    ensures t.nodes[c].parent.Some? ==> t.nodes[c].parent.value < c
    ensures t.nodes[c].parent.None? ==> Walk(t, c) == [LevelSegment(t, c)]
    ensures t.nodes[c].parent.Some? && IsHtml(t, t.nodes[c].parent.value) ==> Walk(t, c) == [LevelSegment(t, c)]
    ensures t.nodes[c].parent.Some? && !IsHtml(t, t.nodes[c].parent.value) ==>
      Walk(t, c) == Walk(t, t.nodes[c].parent.value) + [LevelSegment(t, c)]
  {
    assert ValidNode(t, c);
  }

  lemma RenderSingle(esc: string -> string, s: Segment)
    ensures Render(esc, [s]) == RenderSegment(esc, s)
  {
    assert RenderedSegments(esc, [s]) == [RenderSegment(esc, s)];
  }

  /**
   * `getClassBasedSelector`: the element's lower-case tag and first two classes,
   * kept only when the document holds exactly one element they select. That
   * element is the clicked one when its own name and class list are what the
   * selector reads them as (`ClassSelfSelectable`).
   */
  function ClassBasedSelector(t: Tree, i: nat): (r: Option<ClassSelector>)
    requires i < |t.nodes|
    ensures var e := t.nodes[i]; var tokens := Tokens(e.classAttr, IsSpace);
      var cs := ClassSelector(ToLower(e.tagName), tokens[..Min(2, |tokens|)]);
      r.Some? <==>
        && e.classNameIsString && tokens != [] && t.hasOwnerDocument
        && exists m | 0 <= m < |t.nodes| :: ClassMatches(t, cs, m) && forall n | 0 <= n < |t.nodes| && ClassMatches(t, cs, n) :: n == m
    ensures var e := t.nodes[i]; var tokens := Tokens(e.classAttr, IsSpace);
      ClassSelfSelectable(e) ==>
        (r.Some? <==>
          && e.classNameIsString && tokens != [] && t.hasOwnerDocument
          && forall n | 0 <= n < |t.nodes| ::
               ClassMatches(t, ClassSelector(ToLower(e.tagName), tokens[..Min(2, |tokens|)]), n) <==> n == i)
    ensures r.Some? ==>
      var tokens := Tokens(t.nodes[i].classAttr, IsSpace);
      && r.value.tag == ToLower(t.nodes[i].tagName)
      && 1 <= |r.value.classes| <= 2 && |r.value.classes| == Min(2, |tokens|)
      && r.value.classes == tokens[..|r.value.classes|]
  {
    var e := t.nodes[i];
    if e.classAttr == "" || !e.classNameIsString then None
    else
      var classes := Tokens(e.classAttr, IsSpace);
      if |classes| == 0 then None
      else
        var cs := ClassSelector(ToLower(e.tagName), classes[..Min(2, |classes|)]);
        CountOneMeansSingle(t, cs);
        SelfSelectableCountOne(t, i, cs, Min(2, |classes|));
        if !t.hasOwnerDocument then None
        else if ClassQueryCount(t, cs) == 1 then Some(cs) else None
  }

  function Min(a: nat, b: nat): nat { if a < b then a else b }

  /** `getReadableSelector`: the structural selector, or a strictly shorter class selector when it is over the threshold. */
  method GetReadableSelector(t: Tree, i: nat, esc: string -> string) returns (selector: string)
    requires Valid(t) && i < |t.nodes|
    ensures var s := Render(esc, Walk(t, i)); var c := ClassBasedSelector(t, i);
      selector == if |s| > ReadableThreshold && c.Some? && |RenderClassSelector(esc, c.value)| < |s|
                  then RenderClassSelector(esc, c.value) else s
    ensures |selector| <= |Render(esc, Walk(t, i))|
    ensures |Render(esc, Walk(t, i))| <= ReadableThreshold ==> selector == Render(esc, Walk(t, i))
    ensures selector == Render(esc, Walk(t, i))
         || (ClassBasedSelector(t, i).Some? && selector == RenderClassSelector(esc, ClassBasedSelector(t, i).value))
  {
    selector := GenerateSelector(t, i, esc);
    if |selector| > ReadableThreshold {
      var classSelector := ClassBasedSelector(t, i);
      if classSelector.Some? && |RenderClassSelector(esc, classSelector.value)| < |selector| {
        return RenderClassSelector(esc, classSelector.value);
      }
    }
  }

  /**
   * The element's lower-cased name selects it, and its `class` attribute holds
   * no white space besides ASCII white space, so that the tokens
   * `getClassBasedSelector` reads are the browser's class list.
   */
  predicate ClassSelfSelectable(e: Element) {
    NameSelectable(e) && forall c | c in e.classAttr :: IsSpace(c) ==> IsAsciiWhitespace(c)
  }

  /** Splitting on two separator sets that agree on every character of `s` gives the same tokens. */
  lemma {:induction false} TokensAgree(s: string, a: char -> bool, b: char -> bool)
    requires forall c | c in s :: a(c) == b(c)
    ensures Tokens(s, a) == Tokens(s, b)
    decreases |s|
  {
    if s != [] {
      if a(s[0]) {
        TokensAgree(s[1..], a, b);
      } else {
        WordsAgree(s, a, b);
        var w := Word(s, a);
        TokensAgree(s[|w|..], a, b);
      }
    }
  }

  lemma {:induction false} WordsAgree(s: string, a: char -> bool, b: char -> bool)
    requires forall c | c in s :: a(c) == b(c)
    ensures Word(s, a) == Word(s, b)
    decreases |s|
  {
    if s != [] {
      WordsAgree(s[1..], a, b);
    }
  }

  /** An element that is `ClassSelfSelectable` matches the selector built from its own tag and leading class tokens. */
  lemma OwnClassSelectorMatches(t: Tree, i: nat, cs: ClassSelector, m: nat)
    requires i < |t.nodes| && ClassSelfSelectable(t.nodes[i])
    requires cs.tag == ToLower(t.nodes[i].tagName)
    requires m <= |Tokens(t.nodes[i].classAttr, IsSpace)| && cs.classes == Tokens(t.nodes[i].classAttr, IsSpace)[..m]
    ensures ClassMatches(t, cs, i)
  {
    var e := t.nodes[i];
    TokensAgree(e.classAttr, IsSpace, IsAsciiWhitespace);
    LowerTwice(e.tagName);
  }

  lemma SelfSelectableCountOne(t: Tree, i: nat, cs: ClassSelector, m: nat)
    requires i < |t.nodes| && cs.tag == ToLower(t.nodes[i].tagName)
    requires m <= |Tokens(t.nodes[i].classAttr, IsSpace)| && cs.classes == Tokens(t.nodes[i].classAttr, IsSpace)[..m]
    ensures ClassSelfSelectable(t.nodes[i]) ==>
      (ClassQueryCount(t, cs) == 1 <==> forall n | 0 <= n < |t.nodes| :: ClassMatches(t, cs, n) <==> n == i)
  {
    if ClassSelfSelectable(t.nodes[i]) {
      OwnClassSelectorMatches(t, i, cs, m);
      CountOneMeansOnly(t, cs, i);
    }
  }

  /** A query count of one means the document holds exactly one element the selector selects. */
  lemma CountOneMeansSingle(t: Tree, cs: ClassSelector)
    ensures ClassQueryCount(t, cs) == 1 <==>
      exists m | 0 <= m < |t.nodes| :: ClassMatches(t, cs, m) && forall n | 0 <= n < |t.nodes| && ClassMatches(t, cs, n) :: n == m
  {
    var s := ClassMatchSet(t, cs);
    if ClassQueryCount(t, cs) == 1 {
      var m :| m in s;
      forall n | 0 <= n < |t.nodes| && ClassMatches(t, cs, n)
        ensures n == m
      {
        assert n in s;
        if n != m {
          assert {m, n} <= s;
          SubsetCard({m, n}, s);
        }
      }
    }
    if exists m | 0 <= m < |t.nodes| :: ClassMatches(t, cs, m) && forall n | 0 <= n < |t.nodes| && ClassMatches(t, cs, n) :: n == m {
      var m :| 0 <= m < |t.nodes| && ClassMatches(t, cs, m) && forall n | 0 <= n < |t.nodes| && ClassMatches(t, cs, n) :: n == m;
      assert s == {m};
    }
  }

  /** A query count of one for a selector the element matches means the element is its only match. */
  lemma CountOneMeansOnly(t: Tree, cs: ClassSelector, i: nat)
    requires i < |t.nodes| && ClassMatches(t, cs, i)
    ensures ClassQueryCount(t, cs) == 1 <==> forall n | 0 <= n < |t.nodes| :: ClassMatches(t, cs, n) <==> n == i
  {
    var s := ClassMatchSet(t, cs);
    assert i in s;
    if ClassQueryCount(t, cs) == 1 {
      forall n | 0 <= n < |t.nodes| && ClassMatches(t, cs, n)
        ensures n == i
      {
        assert n in s;
        if n != i {
          assert {i, n} <= s;
          SubsetCard({i, n}, s);
        }
      }
    }
    if forall n | 0 <= n < |t.nodes| :: ClassMatches(t, cs, n) <==> n == i {
      assert s == {i};
    }
  }
}

=== FILE: selector_proofs.dfy ===
/**
 * What the element locator guarantees about the selectors it builds: the
 * `#id` fast path, the shape of the ancestor walk, the `:nth-of-type()` ranks,
 * and that a selector anchored on a unique id selects exactly the clicked
 * element under the child-combinator and `:nth-of-type()` semantics of
 * Selectors Level 3.
 */
module SelectorProofs {
  import opened Wrappers
  import opened Text
  import opened Dom
  import opened SelectorGenerator

  /** The fast path: the walk is the single segment `#id` exactly when the element's own id is unique. */
  lemma FastPath(t: Tree, i: nat, esc: string -> string)
    requires Valid(t) && i < |t.nodes|
    ensures Walk(t, i) == [IdSegment(t.nodes[i].id)] <==> IsIdUnique(t, i)
    ensures IsIdUnique(t, i) ==> Render(esc, Walk(t, i)) == "#" + esc(t.nodes[i].id)
  {
    if !IsIdUnique(t, i) {
      WalkStep(t, i);
      assert Walk(t, i)[|Walk(t, i)| - 1] == LevelSegment(t, i);
    } else {
      RenderSingle(esc, IdSegment(t.nodes[i].id));
    }
  }

  /** `isIdUnique` holds exactly when the element has a non-empty id and is the one and only element its `#id` selects. */
  lemma IsIdUniqueMeaning(t: Tree, i: nat)
    requires i < |t.nodes|
    ensures IsIdUnique(t, i) <==>
      t.nodes[i].id != "" && t.hasOwnerDocument && ElementsWithId(t, t.nodes[i].id) == {i}
  {
    var s := ElementsWithId(t, t.nodes[i].id);
    assert i in s;
    if IdCount(t, t.nodes[i].id) == 1 {
      forall n | n in s ensures n == i {
        IdCountOne(t, t.nodes[i].id, i, n);
      }
    }
  }

  /**
   * A level segment is the lower-case tag, with `:nth-of-type(k)` exactly when
   * the parent has several children of the same tag name; k is then the
   * element's 1-based rank among them, as section 6.6.5.4 of Selectors Level 3 counts it.
   */
  lemma LevelSegmentSpec(t: Tree, c: nat)
    requires Valid(t) && c < |t.nodes|
    ensures var s := LevelSegment(t, c); var siblings := SameTagSiblings(t, c);
      && s.TagSegment? && s.tag == ToLower(t.nodes[c].tagName)
      && (s.nth.Some? <==> t.nodes[c].parent.Some? && |siblings| > 1)
      && (s.nth.Some? ==> 1 <= s.nth.value <= |siblings| && IsNthOfType(t, c, s.nth.value))
  {
    var e := t.nodes[c];
    assert ValidNode(t, c);
    if e.parent.Some? {
      var p := e.parent.value;
      assert ValidNode(t, p);
      IndexOfSameTag(t, t.nodes[p].children, c, e.tagName);
    }
  }

  /** Two different children of one parent that share a tag name get different `:nth-of-type()` indices. */
  lemma SiblingsGetDistinctRanks(t: Tree, a: nat, b: nat)
    requires Valid(t) && a < |t.nodes| && b < |t.nodes| && a != b
    requires t.nodes[a].parent.Some? && t.nodes[a].parent == t.nodes[b].parent
    requires t.nodes[a].tagName == t.nodes[b].tagName
    ensures LevelSegment(t, a).nth.Some? && LevelSegment(t, b).nth.Some?
    ensures LevelSegment(t, a).nth.value != LevelSegment(t, b).nth.value
  {
    var p := t.nodes[a].parent.value;
    assert ValidNode(t, a) && ValidNode(t, b) && ValidNode(t, p);
    var kids := t.nodes[p].children;
    var tag := t.nodes[a].tagName;
    var siblings := SameTagSiblings(t, a);
    assert siblings == SameTagSiblings(t, b);
    assert a in siblings && b in siblings;
    LevelSegmentSpec(t, a);
    LevelSegmentSpec(t, b);
    if LevelSegment(t, a).nth.value == LevelSegment(t, b).nth.value {
      RankDetermines(t, kids, a, b, tag);
    }
  }

  /** The walk's stopping rule: the outermost element is a unique-id anchor, an orphan, or a child of `<html>`. */
  ghost predicate Stops(t: Tree, c: nat)
    requires Valid(t) && c < |t.nodes|
  {
    assert ValidNode(t, c);
    IsIdUnique(t, c) || t.nodes[c].parent.None? || ParentIsHtml(t, c)
  }

  /** `b` is a child of `a`. */
  ghost predicate ParentLink(t: Tree, a: nat, b: nat) {
    b < |t.nodes| && t.nodes[b].parent == Some(a)
  }

  /** What the walk says about its k-th visited element (counting from the outermost). */
  ghost predicate WalkFactsAt(t: Tree, i: nat, k: nat)
    requires Valid(t) && i < |t.nodes|
  {
    var w := WalkNodes(t, i);
    var p := Walk(t, i);
    && |w| == |p| && k < |w| && w[k] < |t.nodes|
    && (k + 1 < |w| ==> ParentLink(t, w[k], w[k + 1]) && !IsHtml(t, w[k]))
    && (k > 0 ==> !Stops(t, w[k]) && p[k] == LevelSegment(t, w[k]))
    && (k == 0 ==> Stops(t, w[k]))
    && (k == 0 ==> p[k] == if IsIdUnique(t, w[k]) then IdSegment(t.nodes[w[k]].id) else LevelSegment(t, w[k]))
  }

  /** The walk's facts at one position, by induction over the walk. */
  lemma {:induction false} WalkAt(t: Tree, i: nat, k: nat)
    requires Valid(t) && i < |t.nodes| && k < |WalkNodes(t, i)|
    ensures WalkFactsAt(t, i, k)
    ensures WalkNodes(t, i)[|WalkNodes(t, i)| - 1] == i
    decreases i
  {
    assert ValidNode(t, i);
    if !IsIdUnique(t, i) {
      WalkStep(t, i);
      match t.nodes[i].parent
      case None =>
      case Some(q) =>
        if !IsHtml(t, q) {
          var w := WalkNodes(t, q);
          assert WalkNodes(t, i) == w + [i];
          assert Walk(t, i) == Walk(t, q) + [LevelSegment(t, i)];
          if k < |w| {
            WalkAt(t, q, k);
            if k + 1 == |w| {
              WalkAt(t, q, |w| - 1);
            }
          } else {
            WalkAt(t, q, |w| - 1);
          }
        }
    }
  }

  /**
   * The shape of the walk: one segment per visited element, the clicked element
   * last, each visited element the parent of the next and never `<html>`; only
   * the outermost one may be a unique-id anchor, and the walk stops exactly there.
   */
  lemma WalkShape(t: Tree, i: nat)
    requires Valid(t) && i < |t.nodes|
    ensures |WalkNodes(t, i)| >= 1 && WalkNodes(t, i)[|WalkNodes(t, i)| - 1] == i
    ensures forall k | 0 <= k < |WalkNodes(t, i)| :: WalkFactsAt(t, i, k)
  {
    assert |WalkNodes(t, i)| >= 1;
    forall k | 0 <= k < |WalkNodes(t, i)| ensures WalkFactsAt(t, i, k) {
      WalkAt(t, i, k);
    }
    WalkAt(t, i, 0);
  }

  /** An orphan without a unique id gets the bare lower-case tag. */
  lemma OrphanSelector(t: Tree, i: nat, esc: string -> string)
    requires Valid(t) && i < |t.nodes|
    requires t.nodes[i].parent.None? && !IsIdUnique(t, i)
    ensures Render(esc, Walk(t, i)) == ToLower(t.nodes[i].tagName)
  {
    WalkStep(t, i);
    LevelSegmentSpec(t, i);
    RenderSingle(esc, LevelSegment(t, i));
  }

  /** Joining the segments with `" > "` puts one separator between consecutive segments. */
  lemma SeparatorCount(t: Tree, i: nat, esc: string -> string)
    requires Valid(t) && i < |t.nodes|
    ensures |Walk(t, i)| >= 1
    ensures |Render(esc, Walk(t, i))| == TotalLength(RenderedSegments(esc, Walk(t, i))) + 3 * (|Walk(t, i)| - 1)
  {
    WalkAt(t, i, 0);
    JoinLength(RenderedSegments(esc, Walk(t, i)), " > ");
  }

  /**
   * The walk's segments match the element they were built for, provided that each
   * element of the walk is selected by its own lower-cased name.
   */
  lemma {:induction false} WalkMatchesElement(t: Tree, i: nat)
    requires Valid(t) && i < |t.nodes|
    requires forall n | 0 <= n < |t.nodes| && n in WalkNodes(t, i) :: NameSelectable(t.nodes[n])
    ensures PathMatches(t, Walk(t, i), i)
    decreases i
  {
    assert ValidNode(t, i);
    if !IsIdUnique(t, i) {
      WalkStep(t, i);
      LevelSegmentSpec(t, i);
      assert i in WalkNodes(t, i);
      LowerTwice(t.nodes[i].tagName);
      match t.nodes[i].parent
      case None =>
      case Some(q) =>
        if !IsHtml(t, q) {
          assert WalkNodes(t, i) == WalkNodes(t, q) + [i];
          WalkMatchesElement(t, q);
          var path := Walk(t, i);
          assert path[..|path| - 1] == Walk(t, q);
        }
    }
  }

  /** Matching `path > seg` means matching `seg` and having a parent that matches `path`. */
  lemma PathMatchesLast(t: Tree, path: seq<Segment>, seg: Segment, n: nat)
    requires Valid(t) && n < |t.nodes| && |path| > 0
    requires PathMatches(t, path + [seg], n)
    ensures SegmentMatches(t, seg, n)
    ensures t.nodes[n].parent.Some? && t.nodes[n].parent.value < |t.nodes|
    ensures PathMatches(t, path, t.nodes[n].parent.value)
  {
    assert ValidNode(t, n);
    assert (path + [seg])[..|path|] == path;
  }

  /** A sibling of `i` that matches the level segment of `i` is `i` itself. */
  lemma SiblingMatchIsSelf(t: Tree, i: nat, n: nat)
    requires Valid(t) && CaseConsistent(t) && i < |t.nodes| && n < |t.nodes|
    requires t.nodes[i].parent.Some? && t.nodes[n].parent == t.nodes[i].parent
    requires SegmentMatches(t, LevelSegment(t, i), n)
    ensures n == i
  {
    LevelSegmentSpec(t, i);
    var seg := LevelSegment(t, i);
    LowerTwice(t.nodes[i].tagName);
    SameNameUpToCase(t, i, n);
    SiblingInSameTagSiblings(t, i, n);
    match seg.nth
    case None =>
      var siblings := SameTagSiblings(t, i);
      assert siblings[0] == i && siblings[0] == n;
    case Some(k) =>
      SameRankSameElement(t, i, n, k);
  }

  /** Under consistent case, element names that agree up to case agree exactly. */
  lemma SameNameUpToCase(t: Tree, a: nat, b: nat)
    requires CaseConsistent(t) && a < |t.nodes| && b < |t.nodes|
    requires ToLower(t.nodes[a].tagName) == ToLower(t.nodes[b].tagName)
    ensures t.nodes[a].tagName == t.nodes[b].tagName
  {
  }

  /** Two same-name siblings that are both the k-th of their type are one element. */
  lemma SameRankSameElement(t: Tree, a: nat, b: nat, k: int)
    requires Valid(t) && a < |t.nodes| && b < |t.nodes|
    requires t.nodes[a].parent == t.nodes[b].parent && t.nodes[a].tagName == t.nodes[b].tagName
    requires IsNthOfType(t, a, k) && IsNthOfType(t, b, k)
    ensures a == b
  {
    var q := t.nodes[a].parent.value;
    assert ValidNode(t, a) && ValidNode(t, b) && ValidNode(t, q);
    RankDetermines(t, t.nodes[q].children, a, b, t.nodes[a].tagName);
  }

  /** A same-tag sibling of `c` is among the siblings `generateSelector` collects for `c`. */
  lemma SiblingInSameTagSiblings(t: Tree, c: nat, n: nat)
    requires Valid(t) && c < |t.nodes| && n < |t.nodes|
    requires t.nodes[c].parent.Some? && t.nodes[n].parent == t.nodes[c].parent
    requires t.nodes[n].tagName == t.nodes[c].tagName
    ensures n in SameTagSiblings(t, c) && c in SameTagSiblings(t, c)
  {
    assert ValidNode(t, n) && ValidNode(t, c);
  }

  /** Every element that a unique-id-anchored walk from `i` matches is `i` itself. */
  lemma {:induction false} AnchoredWalkMatchesOnly(t: Tree, i: nat, n: nat)
    requires Valid(t) && CaseConsistent(t) && i < |t.nodes| && n < |t.nodes|
    requires Walk(t, i)[0].IdSegment?
    requires PathMatches(t, Walk(t, i), n)
    ensures n == i
    decreases i
  {
    if IsIdUnique(t, i) {
      IdCountOne(t, t.nodes[i].id, i, n);
    } else {
      WalkStep(t, i);
      var q := t.nodes[i].parent.value;
      var upper := Walk(t, q);
      assert |upper| >= 1;
      assert Walk(t, i) == upper + [LevelSegment(t, i)];
      PathMatchesLast(t, upper, LevelSegment(t, i), n);
      AnchoredWalkMatchesOnly(t, q, t.nodes[n].parent.value);
      SiblingMatchIsSelf(t, i, n);
    }
  }

  /**
   * The locator's promise of a unique selector, where it holds: when the walk
   * ends at a unique-id anchor, and each element of the walk is selected by its
   * own lower-cased name, the selector matches the clicked element and no other.
   */
  lemma AnchoredSelectorIsUnique(t: Tree, i: nat)
    requires Valid(t) && CaseConsistent(t) && i < |t.nodes|
    requires Walk(t, i)[0].IdSegment?
    requires forall n | 0 <= n < |t.nodes| && n in WalkNodes(t, i) :: NameSelectable(t.nodes[n])
    ensures forall n | 0 <= n < |t.nodes| :: PathMatches(t, Walk(t, i), n) <==> n == i
  {
    WalkMatchesElement(t, i);
    forall n | 0 <= n < |t.nodes| && PathMatches(t, Walk(t, i), n)
      ensures n == i
    {
      AnchoredWalkMatchesOnly(t, i, n);
    }
  }

  /**
   * In quirks mode the id fast path compares ids ignoring ASCII case: beside
   * `<div id="foo">`, the element `<div id="Foo">` has a unique id in a
   * no-quirks document but not in a quirks-mode one, where `#Foo` selects both.
   */
  lemma QuirksIdCaseVariant()
    ensures IsIdUnique(CaseVariantIdPage(false), 2)
    ensures !IsIdUnique(CaseVariantIdPage(true), 2)
  {
    var exact := CaseVariantIdPage(false);
    assert (set j | 0 <= j < |exact.nodes| && NameMatches(exact, exact.nodes[j].id, "Foo")) == {2};
    var quirks := CaseVariantIdPage(true);
    assert ToLower("Foo") == "foo" && ToLower("foo") == "foo";
    assert (set j | 0 <= j < |quirks.nodes| && NameMatches(quirks, quirks.nodes[j].id, "Foo")) == {2, 3};
  }

  function CaseVariantIdPage(quirks: bool): Tree {
    Tree([
      Element("HTML", "", "", true, true, None, [1]),
      Element("BODY", "", "", true, true, Some(0), [2, 3]),
      Element("DIV", "Foo", "", true, true, Some(1), []),
      Element("DIV", "foo", "", true, true, Some(1), [])], true, quirks)
  }

  /**
   * Without `NameSelectable` the selector can miss its element: for an SVG
   * `foreignObject` under `<html><body><svg>`, the walk yields
   * `body > svg > foreignobject`, and the lower-cased type selector does not
   * select the foreign element named `foreignObject`.
   */
  lemma ForeignObjectUnmatched()
    ensures var t := ForeignObjectPage();
      Valid(t) && Walk(t, 3) == [TagSegment("body", None), TagSegment("svg", None), TagSegment("foreignobject", None)]
      && !PathMatches(t, Walk(t, 3), 3)
  {
    var t := ForeignObjectPage();
    ForeignObjectPageValid();
    LowerNames();
    assert SameTagSiblings(t, 1) == [1];
    assert SameTagSiblings(t, 2) == [2];
    assert SameTagSiblings(t, 3) == [3];
    assert Walk(t, 1) == [TagSegment("body", None)];
    assert Walk(t, 2) == [TagSegment("body", None), TagSegment("svg", None)];
  }

  function ForeignObjectPage(): Tree {
    Tree([
      Element("HTML", "", "", true, true, None, [1]),
      Element("BODY", "", "", true, true, Some(0), [2]),
      Element("svg", "", "", false, false, Some(1), [3]),
      Element("foreignObject", "", "", false, false, Some(2), [])], true, false)
  }

  lemma ForeignObjectPageValid()
    ensures Valid(ForeignObjectPage())
  {
    var t := ForeignObjectPage();
    assert ValidNode(t, 0) && ValidNode(t, 1) && ValidNode(t, 2) && ValidNode(t, 3);
  }

  lemma LowerNames()
    ensures ToLower("HTML") == "html" && ToLower("BODY") == "body" && ToLower("DIV") == "div"
    ensures ToLower("div") == "div" && ToLower("svg") == "svg" && ToLower("foreignObject") == "foreignobject"
  {
    assert ToLower("HTML") == "html";
    assert ToLower("BODY") == "body";
    assert ToLower("DIV") == "div";
    assert ToLower("div") == "div";
    assert ToLower("svg") == "svg";
    assert ToLower("foreignObject") == "foreignobject";
  }

  /**
   * Without `ClassSelfSelectable` the class selector can name another element:
   * the clicked `<div class="a&nbsp;b">` yields `div.a.b`, whose one match is its
   * sibling `<div class="a b">`, since a browser does not split on the no-break space.
   */
  lemma NoBreakSpaceSelectsSibling()
    ensures var t := NoBreakSpacePage(); var cs := ClassSelector("div", ["a", "b"]);
      Valid(t) && ClassBasedSelector(t, 2) == Some(cs) && !ClassMatches(t, cs, 2) && ClassMatches(t, cs, 3)
  {
    var t := NoBreakSpacePage();
    var cs := ClassSelector("div", ["a", "b"]);
    NoBreakSpacePageValid();
    NoBreakSpaceMatches(t, cs);
    assert ClassMatchSet(t, cs) == {3};
    NoBreakSpaceTokens();
    var classes := Tokens(t.nodes[2].classAttr, IsSpace);
    assert classes[..Min(2, |classes|)] == ["a", "b"];
    LowerNames();
  }

  function NoBreakSpacePage(): Tree {
    Tree([
      Element("HTML", "", "", true, true, None, [1]),
      Element("BODY", "", "", true, true, Some(0), [2, 3]),
      Element("DIV", "", "a\U{00A0}b", true, true, Some(1), []),
      Element("DIV", "", "a b", true, true, Some(1), [])], true, false)
  }

  lemma NoBreakSpacePageValid()
    ensures Valid(NoBreakSpacePage())
  {
    var t := NoBreakSpacePage();
    assert ValidNode(t, 0) && ValidNode(t, 1) && ValidNode(t, 2) && ValidNode(t, 3);
  }

  lemma NoBreakSpaceMatches(t: Tree, cs: ClassSelector)
    requires t == NoBreakSpacePage() && cs == ClassSelector("div", ["a", "b"])
    ensures forall j | 0 <= j < |t.nodes| :: ClassMatches(t, cs, j) <==> j == 3
  {
    LowerNames();
    assert !ClassMatches(t, cs, 0) && !ClassMatches(t, cs, 1);
    NoBreakSpaceClasses(t);
  }

  /** `.b` does not select the clicked `a&nbsp;b` element; `.a` and `.b` both select its sibling. */
  lemma NoBreakSpaceClasses(t: Tree)
    requires t == NoBreakSpacePage()
    ensures !HasClass(t, Tokens(t.nodes[2].classAttr, IsAsciiWhitespace), "b")
    ensures HasClass(t, Tokens(t.nodes[3].classAttr, IsAsciiWhitespace), "a")
    ensures HasClass(t, Tokens(t.nodes[3].classAttr, IsAsciiWhitespace), "b")
  {
    NoBreakSpaceTokens();
    assert |"b"| != |"a\U{00A0}b"|;
    var list := Tokens(t.nodes[3].classAttr, IsAsciiWhitespace);
    assert NameMatches(t, list[0], "a") && NameMatches(t, list[1], "b");
  }

  lemma NoBreakSpaceTokens()
    ensures Tokens("a\U{00A0}b", IsSpace) == ["a", "b"]
    ensures Tokens("a\U{00A0}b", IsAsciiWhitespace) == ["a\U{00A0}b"]
    ensures Tokens("a b", IsAsciiWhitespace) == ["a", "b"]
  {
    assert Word("a\U{00A0}b", IsSpace) == "a";
    assert Word("b", IsSpace) == "b";
    assert Word("a\U{00A0}b", IsAsciiWhitespace) == "a\U{00A0}b";
    assert Word("a b", IsAsciiWhitespace) == "a";
    assert Word("b", IsAsciiWhitespace) == "b";
  }
}

=== FILE: store.dfy ===
/**
 * The two database collections the handlers share, and the two query shapes
 * they use: a filtered find, which keeps the collection's order, and a
 * find-one, which returns the first document that matches.
 */
module Store {
  import opened Models

  /** The monitors and alerts collections, in their natural order. */
  class Collections {
    var monitors: seq<Monitor>
    var alerts: seq<Alert>

    constructor ()
      ensures monitors == [] && alerts == []
    {
      monitors := [];
      alerts := [];
    }
  }

  /** `_id` is the collection's unique key. */
  predicate MonitorIdsDistinct(ms: seq<Monitor>) {
    forall i, j | 0 <= i < j < |ms| :: ms[i].id != ms[j].id
  }

  predicate AlertIdsDistinct(alerts: seq<Alert>) {
    forall i, j | 0 <= i < j < |alerts| :: alerts[i].id != alerts[j].id
  }

  /** A find-one: the position of the first document satisfying `p`, or -1. */
  function FirstIndex<T>(s: seq<T>, p: T -> bool): (r: int)
    ensures -1 <= r < |s|
    ensures r == -1 <==> forall k | 0 <= k < |s| :: !p(s[k])
    ensures r >= 0 ==> p(s[r]) && forall k | 0 <= k < r :: !p(s[k])
  {
    if s == [] then -1
    else if p(s[0]) then 0
    else
      var r := FirstIndex(s[1..], p);
      if r == -1 then -1 else r + 1
  }

  /** A find: the documents satisfying `p`, in collection order. */
  function Filter<T>(s: seq<T>, p: T -> bool): (r: seq<T>)
    ensures |r| <= |s|
    ensures forall x | x in r :: x in s && p(x)
    ensures forall x | x in s && p(x) :: x in r
  {
    if s == [] then []
    else if p(s[0]) then [s[0]] + Filter(s[1..], p)
    else Filter(s[1..], p)
  }

  /** A find keeps every matching document as many times as the collection holds it, and nothing else. */
  lemma {:induction false} FilterCounts<T>(s: seq<T>, p: T -> bool)
    ensures multiset(Filter(s, p)) <= multiset(s)
    ensures forall x | x in s :: multiset(Filter(s, p))[x] == if p(x) then multiset(s)[x] else 0
  {
    if s != [] {
      FilterCounts(s[1..], p);
      assert s == [s[0]] + s[1..];
    }
  }

  /** With unique ids, the first document carrying an id is the only one. */
  lemma FirstIdIsOnly(ms: seq<Monitor>, k: nat)
    requires MonitorIdsDistinct(ms) && k < |ms|
    ensures FirstIndex(ms, (m: Monitor) => m.id == ms[k].id) == k
  {
  }
}

=== FILE: text.dfy ===
/**
 * String helpers shared by the whole model: ASCII case mapping, JavaScript's
 * `trim`, `split(" ")` and `join`, and the decimal rendering of numbers used by
 * template strings.
 *
 * Strings are sequences of characters. Case mapping covers the ASCII letters
 * only; white space is the full ECMAScript set.
 */
module Text {

  /**
   * The characters removed by `trim` and matched by `\s`: ECMAScript's
   * WhiteSpace (tab, vertical tab, form feed, the space separators and the
   * byte order mark) and LineTerminator (line feed, carriage return, line and
   * paragraph separators).
   */
  predicate IsSpace(c: char) {
    c == '\t' || c == '\n' || c == '\U{000B}' || c == '\U{000C}' || c == '\r' || c == ' '
    || c == '\U{00A0}' || c == '\U{1680}' || '\U{2000}' <= c <= '\U{200A}'
    || c == '\U{2028}' || c == '\U{2029}' || c == '\U{202F}' || c == '\U{205F}'
    || c == '\U{3000}' || c == '\U{FEFF}'
  }

  /**
   * ASCII white space as the HTML standard defines it (tab, line feed, form
   * feed, carriage return, space): what a browser splits a `class` attribute on.
   */
  predicate IsAsciiWhitespace(c: char) {
    c == '\t' || c == '\n' || c == '\U{000C}' || c == '\r' || c == ' '
  }

  predicate IsUpperAscii(c: char) { 'A' <= c <= 'Z' }

  predicate IsLowerAscii(c: char) { 'a' <= c <= 'z' }

  function LowerChar(c: char): char {
    if IsUpperAscii(c) then (c as int + 32) as char else c
  }

  function UpperChar(c: char): char {
    if IsLowerAscii(c) then (c as int - 32) as char else c
  }

  /** `toLowerCase()` on ASCII letters. */
  function ToLower(s: string): (r: string)
    ensures |r| == |s|
  {
    seq(|s|, k requires 0 <= k < |s| => LowerChar(s[k]))
  }

  /** Lower-casing a lower-cased string changes nothing. */
  lemma LowerTwice(s: string)
    ensures ToLower(ToLower(s)) == ToLower(s)
  {
    assert forall k | 0 <= k < |s| :: ToLower(ToLower(s))[k] == ToLower(s)[k];
  }

  /** `toUpperCase()` on ASCII letters. */
  function ToUpper(s: string): (r: string)
    ensures |r| == |s|
  {
    seq(|s|, k requires 0 <= k < |s| => UpperChar(s[k]))
  }

  predicate StartsWith(s: string, prefix: string) {
    |prefix| <= |s| && s[..|prefix|] == prefix
  }

  /** Go's `strings.TrimPrefix`: `s` without `prefix` when it starts with it, else `s`. */
  function TrimPrefix(s: string, prefix: string): (r: string)
    ensures StartsWith(s, prefix) ==> s == prefix + r
    ensures !StartsWith(s, prefix) ==> r == s
  {
    if StartsWith(s, prefix) then s[|prefix|..] else s
  }

  /** `trimStart()`: drops the leading white space and nothing else. */
  function TrimStart(s: string): (r: string)
    ensures |r| <= |s| && r == s[|s| - |r|..]
    ensures r == [] || !IsSpace(r[0])
    ensures forall k | 0 <= k < |s| - |r| :: IsSpace(s[k])
    decreases |s|
  {
    if s != [] && IsSpace(s[0]) then TrimStart(s[1..]) else s
  }

  /** `trimEnd()`: drops the trailing white space and nothing else. */
  function TrimEnd(s: string): (r: string)
    ensures |r| <= |s| && r == s[..|r|]
    ensures r == [] || !IsSpace(r[|r| - 1])
    ensures forall k | |r| <= k < |s| :: IsSpace(s[k])
    decreases |s|
  {
    if s != [] && IsSpace(s[|s| - 1]) then TrimEnd(s[..|s| - 1]) else s
  }

  /**
   * `trim()`: the slice of `s` left once its leading and trailing white space
   * are dropped; it neither starts nor ends with white space.
   */
  function Trim(s: string): (r: string)
    ensures |r| <= |s|
    ensures r != [] ==> !IsSpace(r[0]) && !IsSpace(r[|r| - 1])
    ensures exists a, b | 0 <= a <= b <= |s| ::
      && r == s[a..b]
      && (forall k | 0 <= k < a :: IsSpace(s[k]))
      && (forall k | b <= k < |s| :: IsSpace(s[k]))
  {
    var t := TrimStart(s);
    var r := TrimEnd(t);
    var a := |s| - |t|;
    assert r == s[a..a + |r|];
    assert forall k | a + |r| <= k < |s| :: s[k] == t[k - a];
    r
  }

  /** Trimming a string that neither starts nor ends with white space changes nothing. */
  lemma TrimmedIsFixed(s: string)
    requires s != [] ==> !IsSpace(s[0]) && !IsSpace(s[|s| - 1])
    ensures Trim(s) == s
  {
  }

  /** `parts.join(sep)`. */
  function Join(parts: seq<string>, sep: string): string
    decreases |parts|
  {
    if |parts| == 0 then ""
    else if |parts| == 1 then parts[0]
    else parts[0] + sep + Join(parts[1..], sep)
  }

  function TotalLength(parts: seq<string>): nat
    decreases |parts|
  {
    if parts == [] then 0 else |parts[0]| + TotalLength(parts[1..])
  }

  /** Joining n parts inserts exactly n - 1 separators. */
  lemma {:induction false} JoinLength(parts: seq<string>, sep: string)
    requires |parts| > 0
    ensures |Join(parts, sep)| == TotalLength(parts) + |sep| * (|parts| - 1)
    decreases |parts|
  {
    if |parts| > 1 {
      JoinLength(parts[1..], sep);
    }
  }

  /** `s.split(d)` for a one-character separator: always at least one part, no part contains `d`. */
  function Split(s: string, d: char): (parts: seq<string>)
    ensures |parts| >= 1
    ensures forall k | 0 <= k < |parts| :: d !in parts[k]
    decreases |s|
  {
    if s == [] then [""]
    else
      var rest := Split(s[1..], d);
      if s[0] == d then [""] + rest else [[s[0]] + rest[0]] + rest[1..]
  }

  /** Splitting and joining back with the same separator gives the string back. */
  lemma {:induction false} SplitJoin(s: string, d: char)
    ensures Join(Split(s, d), [d]) == s
    decreases |s|
  {
    if s != [] {
      var rest := Split(s[1..], d);
      SplitJoin(s[1..], d);
      if s[0] != d {
        if |rest| > 1 {
          assert Join(rest, [d]) == rest[0] + [d] + Join(rest[1..], [d]);
          assert [[s[0]] + rest[0]] + rest[1..] == [[s[0]] + rest[0]] + rest[1..];
        }
      }
    }
  }

  /** A string that does not start with the separator has a non-empty first part starting with its first character. */
  lemma SplitFirstPart(s: string, d: char)
    requires s != [] && s[0] != d
    ensures Split(s, d)[0] != [] && Split(s, d)[0][0] == s[0]
  {
  }

  /** A string that does not end with the separator has a non-empty last part. */
  lemma {:induction false} SplitLastPart(s: string, d: char)
    requires s != [] && s[|s| - 1] != d
    ensures var parts := Split(s, d); parts[|parts| - 1] != []
    decreases |s|
  {
    if |s| > 1 {
      SplitLastPart(s[1..], d);
    }
  }

  function DigitChar(n: nat): char
    requires n < 10
  {
    ('0' as int + n) as char
  }

  /** Decimal rendering of a natural number, as a template string prints it: digits without a leading zero. */
  function NatToString(n: nat): (r: string)
    ensures r != []
    ensures forall k | 0 <= k < |r| :: '0' <= r[k] <= '9'
    ensures r[0] == '0' ==> r == "0"
    decreases n
  {
    if n < 10 then [DigitChar(n)] else NatToString(n / 10) + [DigitChar(n % 10)]
  }

  function Pow10(e: nat): nat {
    if e == 0 then 1 else 10 * Pow10(e - 1)
  }

  /** The number a run of decimal digits denotes: each digit times ten to the power of its place. */
  function DigitsValue(s: string): nat
    requires forall k | 0 <= k < |s| :: '0' <= s[k] <= '9'
  {
    if s == [] then 0 else (s[0] as int - '0' as int) * Pow10(|s| - 1) + DigitsValue(s[1..])
  }

  /** Appending a digit multiplies the value by ten and adds the digit. */
  lemma {:induction false} DigitsValueAppend(s: string, c: char)
    requires forall k | 0 <= k < |s| :: '0' <= s[k] <= '9'
    requires '0' <= c <= '9'
    ensures DigitsValue(s + [c]) == 10 * DigitsValue(s) + (c as int - '0' as int)
  {
    if s != [] {
      assert (s + [c])[1..] == s[1..] + [c];
      DigitsValueAppend(s[1..], c);
    }
  }

  /** The digits `NatToString` prints denote the number printed. */
  lemma {:induction false} NatToStringValue(n: nat)
    ensures DigitsValue(NatToString(n)) == n
    decreases n
  {
    if n >= 10 {
      NatToStringValue(n / 10);
      DigitsValueAppend(NatToString(n / 10), DigitChar(n % 10));
    }
  }

  /** Decimal rendering of an integer, with a leading minus sign when negative. */
  function IntToString(i: int): string {
    if i < 0 then "-" + NatToString(-i) else NatToString(i)
  }
}

=== FILE: wrappers.dfy ===
/**
 * Optional values, standing for the `null`/`undefined` and "not found" cases
 * of the source, and results, standing for Go's `(value, error)` returns.
 */
module Wrappers {

  datatype Option<+T> = None | Some(value: T) {

    /** Returns the wrapped value, or `default` when there is none. */
    function GetOr(default: T): T {
      match this
      case Some(v) => v
      case None => default
    }
  }

  datatype Result<+T, +E> = Ok(value: T) | Err(error: E)
}
